=== FILE: README.md ===
# 6DOF navmesh volume — a Dafny model

This project models the navigation core of the `ASixDOFNavmeshVolume` actor of the 6DOF-Navmesh
Unreal plugin, together with the `PrioritiyQueue` it uses as its search frontier. The navmesh
covers a box-shaped volume with a grid of cubic root cells ("octants"). Each root cell is
split recursively into eight octants wherever obstacles occupy part of it. Pathfinding queries
run a greedy best-first search over the leaf cells, one search step per query per worker tick.

The model is functional. A cell (`FOctant`) is an immutable recursive value that owns its
children, and the grid is a `seq<seq<seq<Octant>>>`. A query (`FPathfindingTask`) is a value
whose `closed` map sends each reached cell to the cell it was reached from. The frontier is a
sequence of `(data, priority)` nodes. Float coordinates are exact reals. The engine's overlap
query and `FVector::Dist` are function parameters.

Modules, in dependency order:

- `Wrappers` (wrappers.dfy): `Option`, standing for a pointer that may be null.
- `Geometry` (geometry.dfy): vectors, boxes, closed containment and overlap, and the
  truncating float-to-`int32` conversion.
- `Octree` (octree.dfy): the cell, its defaults, `Reset`, and the child layout. Child `i` of
  a cell is offset by half the parent's extent along each axis whose bit is set in `i`. The
  module also states the shape invariant of a subdivided tree, and proves that the eight
  children partition their parent.
- `Collision` (collision.dfy): `CheckOctantCollision`. It samples 5x5x5 sub-cells and exits
  early once enough of them are occupied.
- `Subdivision` (subdivision.dfy): `SubdivideOctree`.
- `VoxelGrid` (voxelgrid.dfy): the navmesh settings, `GenerateVoxelGrid`, and the rebuild of
  listened-to cells (`TickDynamicCollisionUpdates`).
- `Location` (location.dfy): `FindOctantAtLocation`, `FindOctantWithinChildren` and
  `FindOctantsAroundMesh`.
- `Neighbors` (neighbors.dfy): `GetNeighbors`, `AddNeighborChildren` and `FindNeighbors`.
- `PriorityQueue` (pqueue.dfy): `PrioritiyQueue<T>`.
- `Pathfinding` (pathfinding.dfy): the query record, one search step (`CalculatePath`), the
  search invariant, and the read-back of the path.
- `Scheduler` (scheduler.dfy): three operations and the worker thread's loop body.
  - `SchedulePathfindingTask` adds a query.
  - `TickPathfindingUpdates` advances the queries.
  - `CompletePathfindingTask` removes a finished query by swap-removal.

## Model

Paths are relative to the repository root.

| member | source | states |
|---|---|---|
| Octree.NewOctant | Source/SixDOFNavmesh/Navmesh/SixDOFNavmeshVolume.h:51-55 | A default cell has level 0, child index 0, cost 1, status `Navigable`, and no children. |
| Octree.Reset | Source/SixDOFNavmesh/Navmesh/SixDOFNavmeshVolume.cpp:27-32 | Reset drops the children and restores level 0, cost 1 and `Navigable`. It keeps the id, center, extent, child index and grid indices. |
| Octree.ResetRestoresDefaults | Source/SixDOFNavmesh/Navmesh/SixDOFNavmeshVolume.cpp:27-32 | A reset cell equals a default cell except for its identity and geometry. Its child index is kept, not reset to 0. |
| Octree.MakeChild | Source/SixDOFNavmesh/Navmesh/SixDOFNavmeshVolume.cpp:450-466 | Child `i` is centered half the parent's extent away along each axis, in the direction bits 1, 2 and 4 of `i` select. It has half the extent, one more level, index `i`, the parent's grid indices, and the default status and cost. |
| Octree.WithinShape | Source/SixDOFNavmesh/Navmesh/SixDOFNavmeshVolume.cpp:443-471 | Every cell inside a well-shaped tree is itself well-shaped. |
| Octree.ChildrenCoverParent | Source/SixDOFNavmesh/Navmesh/SixDOFNavmeshVolume.cpp:450-457 | Any point in a subdivided cell's closed box lies in the closed box of one of its children. |
| Octree.ChildInsideParent | Source/SixDOFNavmesh/Navmesh/SixDOFNavmeshVolume.cpp:450-457 | Every child's box lies inside its parent's box. |
| Octree.ChildInteriorsDisjoint | Source/SixDOFNavmesh/Navmesh/SixDOFNavmeshVolume.cpp:450-457 | No point is strictly inside two different children. |
| Geometry.TruncToInt | Source/SixDOFNavmesh/Navmesh/SixDOFNavmeshVolume.cpp:291-293 | The float-to-`int32` conversion truncates toward zero. The result lies within one unit of its argument, on the side of zero. |
| Geometry.TruncNearZero | Source/SixDOFNavmesh/Navmesh/SixDOFNavmeshVolume.cpp:291-293 | Every value strictly between -1 and 1 truncates to 0. |
| Collision.DefaultEarlyExitCount | Source/SixDOFNavmesh/Navmesh/SixDOFNavmeshVolume.cpp:398-399 | Over reals, the default fill percentage of 80 gives an early-exit count of 100 of the 125 sub-cells. |
| Collision.DefaultEarlyExitCountF32 | Source/SixDOFNavmesh/Navmesh/SixDOFNavmeshVolume.cpp:398-399 | In the source's single-precision arithmetic the default of 80 gives 99. `.01f` is the float nearest 0.01. `80.f * .01f` is a tie that rounds to even below 0.8. 125 times that rounds to a float just below 100, which truncates to 99. |
| Collision.OccupiedBefore | Source/SixDOFNavmesh/Navmesh/SixDOFNavmeshVolume.cpp:425-434 | Among the first `n` samples, each occupied sub-cell counts once, however many obstacle boxes meet it. |
| Collision.SampleIndexOrder | Source/SixDOFNavmesh/Navmesh/SixDOFNavmeshVolume.cpp:417-423 | The three nested loops visit sub-cell (x, y, z) as sample number 25x + 5y + z. |
| Collision.AnyIntersects | Source/SixDOFNavmesh/Navmesh/SixDOFNavmeshVolume.cpp:425-434 | The scan over the obstacle boxes reports a hit exactly when some box meets the sub-cell under the closed overlap test. |
| Collision.TestSample | Source/SixDOFNavmesh/Navmesh/SixDOFNavmeshVolume.cpp:422-434 | Testing sub-cell (x, y, z) tells whether that sample is occupied. |
| Collision.CountSample | Source/SixDOFNavmesh/Navmesh/SixDOFNavmeshVolume.cpp:422-434 | Testing a sample extends the occupied count by that sample. |
| Collision.ScanRow | Source/SixDOFNavmesh/Navmesh/SixDOFNavmeshVolume.cpp:419-435 | The innermost loop either exits early because the threshold was reached before some sample, or leaves the exact count for its five samples with the threshold not yet reached. |
| Collision.ScanPlane | Source/SixDOFNavmesh/Navmesh/SixDOFNavmeshVolume.cpp:418-436 | The middle loop gives the same guarantee for 25 samples. |
| Collision.CheckOctantCollision | Source/SixDOFNavmesh/Navmesh/SixDOFNavmeshVolume.cpp:397-441 | With no overlap the check returns false and leaves the status alone. With an overlap it marks the cell `NonNavigable`, and returns true exactly when at least the threshold of the first 124 samples is occupied. |
| Collision.FullThresholdNeverFilled | Source/SixDOFNavmesh/Navmesh/SixDOFNavmeshVolume.cpp:417-420 | A threshold of 125 is never reached: the 125th sample is counted but never compared. |
| Collision.NonPositiveThresholdFillsOnOverlap | Source/SixDOFNavmesh/Navmesh/SixDOFNavmeshVolume.cpp:406-420 | A threshold of zero or less counts every overlapped cell as filled. |
| Subdivision.Subdivide | Source/SixDOFNavmesh/Navmesh/SixDOFNavmeshVolume.cpp:443-471 | Subdividing a fresh leaf keeps its identity and geometry. It yields a well-shaped tree whose levels grow by one per generation and never exceed the maximum level. |
| Subdivision.SubdivideOutcome | Source/SixDOFNavmesh/Navmesh/SixDOFNavmeshVolume.cpp:443-447 | A clear cell stays a navigable leaf. An overlapped cell at the maximum level, or one that counts as filled, becomes a blocked leaf. Every other overlapped cell is split. |
| Subdivision.SubdivideChildren | Source/SixDOFNavmesh/Navmesh/SixDOFNavmeshVolume.cpp:448-470 | A split cell has exactly eight children in index order, each with the geometry and bookkeeping of its octant. |
| Subdivision.SubdivideAtMaxLevel | Source/SixDOFNavmesh/Navmesh/SixDOFNavmeshVolume.cpp:443-445 | At the maximum level, subdivision changes at most the status. |
| VoxelGrid.DefaultNavmesh | Source/SixDOFNavmesh/Navmesh/SixDOFNavmeshVolume.h:128-138 | The default settings: octant size 500, maximum level 5, 80 percent fill, 200 queries per tick, a 5-second time limit. |
| VoxelGrid.RootIdStep | Source/SixDOFNavmesh/Navmesh/SixDOFNavmeshVolume.cpp:354-366 | The id counter runs on across rows and planes without a gap. |
| VoxelGrid.GenerateRow | Source/SixDOFNavmesh/Navmesh/SixDOFNavmeshVolume.cpp:362-380 | One row holds `zSize` built roots and advances the id counter to the next row's first id. |
| VoxelGrid.GeneratePlane | Source/SixDOFNavmesh/Navmesh/SixDOFNavmeshVolume.cpp:359-381 | One plane holds `ySize` such rows and advances the id counter to the next plane's first id. |
| VoxelGrid.GenerateVoxelGrid | Source/SixDOFNavmesh/Navmesh/SixDOFNavmeshVolume.cpp:342-382 | The grid is `xSize * ySize * zSize` roots. Root (i, j, k) has grid indices (i, j, k), level 0, and id `(i * ySize + j) * zSize + k`. Its center is `pos + octantSize * (i, j, k) + octantSize / 2` and its extent is `octantSize / 2`. It is subdivided, well-shaped, and no deeper than the maximum level. |
| VoxelGrid.ReplaceAt | Source/SixDOFNavmesh/Navmesh/SixDOFNavmeshVolume.cpp:97-101 | Writing through a listener's cell pointer changes that cell and leaves every other root and the grid's dimensions alone. Within its root, every cell outside the written subtree and off the path to it is unchanged, and the cells on the path keep every field but their children. |
| VoxelGrid.ReplaceSubtreeFrame | Source/SixDOFNavmesh/Navmesh/SixDOFNavmeshVolume.cpp:97-101 | Replacing one subtree leaves every cell whose route is neither a prefix nor an extension of the written route unchanged. |
| VoxelGrid.ReplaceSubtreeAncestors | Source/SixDOFNavmesh/Navmesh/SixDOFNavmeshVolume.cpp:97-101 | The proper ancestors of the written cell keep every field but their children. |
| VoxelGrid.ReplaceSubtreeKeepsShape | Source/SixDOFNavmesh/Navmesh/SixDOFNavmeshVolume.cpp:97-101 | Writing a well-shaped cell in place of a cell at the same place keeps the root well-shaped. |
| VoxelGrid.Rebuild | Source/SixDOFNavmesh/Navmesh/SixDOFNavmeshVolume.cpp:99-100 | A rebuilt cell is at the same place, with level 0, cost 1 and the same id. It is well-shaped and within the level bound. |
| VoxelGrid.RebuildListener | Source/SixDOFNavmesh/Navmesh/SixDOFNavmeshVolume.cpp:98-101 | One listener's rebuild changes only its own root, and writes the rebuilt cell at the listener's place. Within that root, cells in other subtrees are unchanged, and the cells above it keep every field but their children. It keeps the layout, the shape and the level bound of the grid. |
| VoxelGrid.RebuildListeners | Source/SixDOFNavmesh/Navmesh/SixDOFNavmeshVolume.cpp:97-102 | Rebuilding all listeners keeps the grid's dimensions, layout, shape and level bound, and leaves the roots no listener names untouched. A cell of the grid that is not a listener's cell, not inside one and not above one is unchanged. |
| VoxelGrid.TickDynamicCollisionUpdates | Source/SixDOFNavmesh/Navmesh/SixDOFNavmeshVolume.cpp:97-102 | The dynamic update touches only the grid, keeps its invariants, and changes nothing without listeners. |
| Location.FindOctantWithinChildren | Source/SixDOFNavmesh/Navmesh/SixDOFNavmeshVolume.cpp:303-318 | A result is a leaf whose closed box holds the point, inside the first child in index order whose box holds it. |
| Location.ScanChildren | Source/SixDOFNavmesh/Navmesh/SixDOFNavmeshVolume.cpp:304-317 | The same guarantee for the children from a given position on. |
| Location.WithinChildrenSucceeds | Source/SixDOFNavmesh/Navmesh/SixDOFNavmeshVolume.cpp:303-318 | In a well-shaped tree the descent finds a leaf whenever some child holds the point. |
| Location.ScanChildrenSucceeds | Source/SixDOFNavmesh/Navmesh/SixDOFNavmeshVolume.cpp:304-317 | The same from a given child on, whenever a later child holds the point. |
| Location.FindOctantAtLocation | Source/SixDOFNavmesh/Navmesh/SixDOFNavmeshVolume.cpp:290-301 | An index outside the grid gives null. A result is never a subdivided cell, and lies inside the root the point maps to. When that root is subdivided, the result's box holds the point. When it is a leaf, it is the result, whatever its box. |
| Location.AxisIndex | Source/SixDOFNavmesh/Navmesh/SixDOFNavmeshVolume.cpp:291-295 | A coordinate inside the grid's extent truncates to an in-range index whose closed interval holds it. |
| Location.RootHoldsPoint | Source/SixDOFNavmesh/Navmesh/SixDOFNavmeshVolume.cpp:291-295 | In a grid laid out by the build, a point of the volume maps to an existing root whose box holds it. |
| Location.LocationIsTotal | Source/SixDOFNavmesh/Navmesh/SixDOFNavmeshVolume.cpp:290-318 | Every point of a built volume is located to a leaf whose closed box holds it. The far faces are excluded. |
| Location.BelowOriginMapsToFirstRoot | Source/SixDOFNavmesh/Navmesh/SixDOFNavmeshVolume.cpp:290-300 | A point less than one cell below the origin on each axis maps to root (0, 0, 0). When that root is a leaf it is returned, although the point is outside the volume. |
| Location.AxisSamples | Source/SixDOFNavmesh/Navmesh/SixDOFNavmeshVolume.cpp:327-331 | The mesh loops visit consecutive integers from the truncated lower bound, none above the upper bound. Every integer from the truncated lower bound up to the upper bound is visited. |
| Location.CollectLocated | Source/SixDOFNavmesh/Navmesh/SixDOFNavmeshVolume.cpp:333-334 | The list stays free of duplicates and keeps what it had as a prefix, in order. It gains exactly the cells located at the visited points. |
| Location.FindOctantsAroundMesh | Source/SixDOFNavmesh/Navmesh/SixDOFNavmeshVolume.cpp:320-340 | The result is the duplicate-free set of leaf cells located at the integer points of the mesh's bounding box. |
| Neighbors.IndexSetsSelectWrongAxis | Source/SixDOFNavmesh/Navmesh/SixDOFNavmeshVolume.cpp:184-219 | The X-direction index sets select children by their Y bit, and the Y-direction sets by their X bit. Only the Z sets select the face shared with the probing cell. |
| Neighbors.IndexSetsMissSharedFace | Source/SixDOFNavmesh/Navmesh/SixDOFNavmeshVolume.cpp:184-205 | Each X and Y index set contains a child that does not touch the shared face. |
| Neighbors.AddNeighborChildren | Source/SixDOFNavmesh/Navmesh/SixDOFNavmeshVolume.cpp:224-235 | A childless neighbour is listed as itself. Only childless cells inside the neighbour are ever listed. |
| Neighbors.ExpandChildren | Source/SixDOFNavmesh/Navmesh/SixDOFNavmeshVolume.cpp:230-234 | Expanding the listed children yields only childless cells inside the neighbour. |
| Neighbors.NeighborsToward | Source/SixDOFNavmesh/Navmesh/SixDOFNavmeshVolume.cpp:181-186 | A direction whose probe finds nothing contributes nothing. A located cell no deeper than the probing cell is contributed itself. Anything contributed lies inside the located cell. |
| Neighbors.LocatedIsChildless | Source/SixDOFNavmesh/Navmesh/SixDOFNavmeshVolume.cpp:295-313 | In a well-shaped grid, point location returns only childless leaves. |
| Neighbors.GetNeighborsAreProbes | Source/SixDOFNavmesh/Navmesh/SixDOFNavmeshVolume.cpp:176-235 | The neighbours are exactly the six probes' results, left, right, back, front, bottom and top, each present or absent. The expansion into children never happens. |
| Neighbors.NeighborsAreLeaves | Source/SixDOFNavmesh/Navmesh/SixDOFNavmeshVolume.cpp:176-222 | A cell has at most six neighbours, all of them childless leaves. |
| Neighbors.FindNeighbors | Source/SixDOFNavmesh/Navmesh/SixDOFNavmeshVolume.cpp:261-283 | The root-index lookup lists at most six roots. |
| Neighbors.FindNeighborsAreAdjacent | Source/SixDOFNavmesh/Navmesh/SixDOFNavmeshVolume.cpp:261-283 | Every root it lists exists and is one grid step away along one axis. |
| Neighbors.FindNeighborsAreComplete | Source/SixDOFNavmesh/Navmesh/SixDOFNavmeshVolume.cpp:261-283 | Every existing root one grid step away along one axis is listed. |
| PriorityQueue.Empty | Source/SixDOFNavmesh/Navmesh/PrioritiyQueue.h:11-13 | A newly constructed queue is empty. |
| PriorityQueue.Push | Source/SixDOFNavmesh/Navmesh/PrioritiyQueue.h:18-21 | The queue gains exactly the node `(data, priority)`, duplicates included. |
| PriorityQueue.MinIndex | Source/SixDOFNavmesh/Navmesh/PrioritiyQueue.h:48-50 | The position found holds a node of least priority under the node ordering, and no earlier node is as small. |
| PriorityQueue.Top | Source/SixDOFNavmesh/Navmesh/PrioritiyQueue.h:30-32 | `Top` is null exactly on an empty queue. Otherwise it is the data of a least-priority node. |
| PriorityQueue.Pop | Source/SixDOFNavmesh/Navmesh/PrioritiyQueue.h:23-28 | `Pop` is a no-op on an empty queue. Otherwise it removes exactly one least-priority node, the one whose data `Top` reports. The other nodes stay, as a multiset. |
| PriorityQueue.PushLeastIsTop | Source/SixDOFNavmesh/Navmesh/PrioritiyQueue.h:18-32 | A node pushed below every queued priority becomes the top. |
| PriorityQueue.PushKeepsTop | Source/SixDOFNavmesh/Navmesh/PrioritiyQueue.h:18-32 | A node pushed at or above the least priority leaves the top unchanged. |
| Pathfinding.NewTask | Source/SixDOFNavmesh/Navmesh/SixDOFNavmeshVolume.h:76-85 | A new query keeps its actor, points and cells. Its frontier, `closed` map and path are empty, and its status is `NotStarted`. |
| Pathfinding.SameQueryIgnoresSearchState | Source/SixDOFNavmesh/Navmesh/SixDOFNavmeshVolume.h:87-89 | Query equality ignores the located cells, the frontier, the `closed` map, the path, the status and the time taken. |
| Pathfinding.Relax | Source/SixDOFNavmesh/Navmesh/SixDOFNavmeshVolume.cpp:168-172 | A blocked or already reached neighbour changes nothing. Otherwise its predecessor is recorded as the current cell and it is queued at its cost. |
| Pathfinding.Expand | Source/SixDOFNavmesh/Navmesh/SixDOFNavmeshVolume.cpp:165-173 | The neighbour loop changes only the frontier and `closed`. No existing entry is overwritten. Every new entry is a passable neighbour whose predecessor is the current cell, and every passable neighbour ends up reached. The old frontier is kept in front. Only newly reached cells are queued, each once, and every newly reached cell is queued. Each queued node's priority is its distance to the destination plus its distance from the current cell. |
| Pathfinding.CalculatePath | Source/SixDOFNavmesh/Navmesh/SixDOFNavmeshVolume.cpp:150-174 | An empty frontier fails the query. A reached destination succeeds without popping. Otherwise only the frontier and `closed` change. Every earlier `closed` entry is kept. Every new entry is a passable neighbour of the frontier's top cell and names that cell as its predecessor. Every passable neighbour of the top cell ends up reached. The popped frontier stays in front of the newly queued nodes. Every newly reached cell is queued, at its distance to the destination plus its distance from the top cell. |
| Pathfinding.RelaxKeepsInvariant | Source/SixDOFNavmesh/Navmesh/SixDOFNavmeshVolume.cpp:168-172 | Recording a neighbour of a reached cell keeps every reached cell passable and leading back to the origin. |
| Pathfinding.ExpandKeepsInvariant | Source/SixDOFNavmesh/Navmesh/SixDOFNavmeshVolume.cpp:165-173 | The whole neighbour loop keeps the search invariant. |
| Pathfinding.PopKeepsMembers | Source/SixDOFNavmesh/Navmesh/PrioritiyQueue.h:23-28 | Everything queued after a pop was queued before it. |
| Pathfinding.CalculatePathKeepsInvariant | Source/SixDOFNavmesh/Navmesh/SixDOFNavmeshVolume.cpp:150-174 | A search step keeps the invariant: every queued cell is the origin or a reached cell, so every predecessor walk ends at the origin. |
| Pathfinding.StartKeepsInvariant | Source/SixDOFNavmesh/Navmesh/SixDOFNavmeshVolume.cpp:251-252 | A freshly scheduled query, with only its origin cell queued, satisfies the invariant. |
| Pathfinding.SuccessNeedsReachedDestination | Source/SixDOFNavmesh/Navmesh/SixDOFNavmeshVolume.cpp:157-160 | Success needs the destination cell among the reached cells. So a blocked destination is never reported found, and a found one leads back to the origin. |
| Pathfinding.ChainUnique | Source/SixDOFNavmesh/Navmesh/SixDOFNavmeshVolume.cpp:129-134 | The predecessor walk between two cells is unique. |
| Pathfinding.ChainReaches | Source/SixDOFNavmesh/Navmesh/SixDOFNavmeshVolume.cpp:129-134 | A walk of n + 1 cells means the destination leads back to the origin in n steps. |
| Pathfinding.Reconstruct | Source/SixDOFNavmesh/Navmesh/SixDOFNavmeshVolume.cpp:128-134 | Given a destination that leads back to the origin, the loop terminates. It returns the predecessor walk and the center of each cell it stepped to. |
| Pathfinding.Reverse | Source/SixDOFNavmesh/Navmesh/SixDOFNavmeshVolume.cpp:136 | Reversal keeps the length and mirrors the positions. |
| Pathfinding.ReverseReverse | Source/SixDOFNavmesh/Navmesh/SixDOFNavmeshVolume.cpp:136 | Reversing twice gives the original path back. |
| Pathfinding.PathShape | Source/SixDOFNavmesh/Navmesh/SixDOFNavmeshVolume.cpp:128-136 | The reversed path is empty exactly when the destination cell is the origin cell. Otherwise it runs from the origin cell's center along the walk to the center of the destination's predecessor. |
| Scheduler.SchedulePathfindingTask | Source/SixDOFNavmesh/Navmesh/SixDOFNavmeshVolume.cpp:238-257 | A query is added exactly when both the destination and the actor's position are located. The list is otherwise unchanged. The new query holds the located cells, has only its origin queued at that cell's cost, has no reached cells and no time taken, and satisfies the search invariant. |
| Scheduler.CompleteSuccessful | Source/SixDOFNavmesh/Navmesh/SixDOFNavmeshVolume.cpp:128-136 | The success branch sets the path to the predecessor walk's centers, reversed. |
| Scheduler.ProcessTask | Source/SixDOFNavmesh/Navmesh/SixDOFNavmeshVolume.cpp:109-142 | One loop iteration times a query out when its time is strictly over the limit. Otherwise it takes one search step and then: fails, succeeds with the path read back, or goes on with its time advanced by `deltaTime`. A query that goes on is still active. |
| Scheduler.Settle | Source/SixDOFNavmesh/Navmesh/SixDOFNavmeshVolume.cpp:118-142 | After the search step a failed query completes unchanged, and a successful one completes with its path read back. Any other query goes on with its time advanced by `deltaTime`. |
| Scheduler.SettledStatus | Source/SixDOFNavmesh/Navmesh/SixDOFNavmeshVolume.cpp:118-142 | Settling keeps the search step's status, and completes exactly the failed and the successful queries. |
| Scheduler.RemoveAtSwap | Source/SixDOFNavmesh/Navmesh/SixDOFNavmeshVolume.cpp:146-148 | Swap-removal shortens the list by one. The last element takes the removed one's place, and every other position is kept. |
| Scheduler.RemoveAtSwapIsRemoval | Source/SixDOFNavmesh/Navmesh/SixDOFNavmeshVolume.cpp:146-148 | Swap-removal takes out exactly one copy of the removed element and keeps the rest as a multiset. |
| Scheduler.RetireStep | Source/SixDOFNavmesh/Navmesh/SixDOFNavmeshVolume.cpp:108-116 | After a completion, the list is the queries that went on plus the unvisited ones. |
| Scheduler.ContinueStep | Source/SixDOFNavmesh/Navmesh/SixDOFNavmeshVolume.cpp:108-142 | After a query goes on, the same holds with that query counted among the ones that went on. |
| Scheduler.RetireKeepsActive | Source/SixDOFNavmesh/Navmesh/SixDOFNavmeshVolume.cpp:146-148 | Swap-removal keeps every query in the list active. |
| Scheduler.VisitTask | Source/SixDOFNavmesh/Navmesh/SixDOFNavmeshVolume.cpp:109-142 | Visiting position `i` processes the `i`-th original query. A completed query is swap-removed and a continued one written back. The loop's bookkeeping is kept. |
| Scheduler.TickPathfindingUpdates | Source/SixDOFNavmesh/Navmesh/SixDOFNavmeshVolume.cpp:104-144 | The tick visits at most `min(maxNumOfTasks, number of queries)` queries. It stops at that budget or at the end of the list. The queries it visits are exactly the first ones of the input, each processed once. The completed ones leave the list, and the list keeps the continued and the unvisited ones. |
| Scheduler.WorkerIteration | Source/SixDOFNavmesh/Navmesh/SixDOFNavmeshWorker.cpp:25-31 | One worker iteration rebuilds the listeners, then ticks with `deltaTime` 0.03, the volume's budget and its time limit. Every query that leaves the list has timed out, failed or succeeded. |
| Scheduler.SuccessfulPath | Source/SixDOFNavmesh/Navmesh/SixDOFNavmeshVolume.cpp:126-139 | A successful query completes. Its path is empty exactly when the origin cell is the destination cell. Otherwise the path runs from the origin cell's center to the center of the destination's predecessor. |
| Scheduler.ReadBackPath | Source/SixDOFNavmesh/Navmesh/SixDOFNavmeshVolume.cpp:128-136 | The same shape, for any path read back into an empty path. |
| Scheduler.CompletedHasFinalStatus | Source/SixDOFNavmesh/Navmesh/SixDOFNavmeshVolume.cpp:109-142 | A query completes exactly when its status becomes `TimedOut`, `Failed` or `Successful`. A continued query keeps its status, so `InProgress` is never set. |

## Left out

- The engine lifecycle is not modelled: the constructor's components, `BeginPlay`/`EndPlay`,
  the query parameters and the worker allocation are host-runtime plumbing.
- The physics overlap query and the actors' bounding boxes are engine calls. They are the
  parameter `Physics`, which gives whether anything overlaps and the overlapping boxes.
- Debug drawing, `DrawDebugAroundMesh` and `TempFindOctant` only render.
- The navigation modifiers are not modelled. Their collection in `GenerateVoxelGrid` is an
  engine actor query, and no code reads their cost.
- `FindOctantAtIndex` is a stub that returns null, so it has no model.
- The worker thread's loop condition, sleep and stop are concurrency. One loop iteration is
  `Scheduler.WorkerIteration`.
- The `newPathfindingTasks` queue is declared but never used.
- Float rounding is not modelled: coordinates are exact reals, and `FVector::Dist` is the
  parameter `Distance`.
- The grid sizes of `GenerateVoxelGrid` are inputs. The source derives them with `CeilToInt`
  from the volume's box.
- Collision.EarlyExitCount: the float product of `percentUntilConsideredFull` is computed over
  reals, so the count can differ from the source's. For the default of 80 the model gives 100
  where the source gives 99 (`Collision.DefaultEarlyExitCountF32`). `CheckOctantCollision`
  itself takes the count as a parameter, so its contract holds for either value.
- Geometry.TruncToInt: does not model `int32` overflow of the conversion. No other `int32`
  arithmetic (ids, indices, counters) is bounded either.
- The `parent` pointer of a cell is dropped, because nothing reads it.
- A cell is identified by its value, not by its address. `closed` is a map from cell values.
- Child cells' `id`s are never assigned in the source. They carry the placeholder
  `UnassignedId`, and no operation reads them.
- Pathfinding.Reconstruct: compares cells as values where the source compares `id`s. The `id`
  of a child cell is uninitialised memory in the source, so the source's walk can stop at a
  wrong cell or run on; the model states the intended stop at the origin cell.
- Pathfinding.NewTask: `timeTaken` starts at 0. The source leaves it uninitialised.
- VoxelGrid.RebuildListeners: `dynamicCollisionListeners` is never filled in the source. A
  listener is modelled as the path of child indices from a root to its cell, and a listener
  whose cell no longer exists is skipped. In the source it would be a dangling pointer.
- Subdivision.Subdivide: requires `level <= maxSubdivisionLevel`. Above the maximum the
  source's level test never stops the recursion. It stops only where a cell is clear or
  counts as filled, so a cell that stays overlapped and unfilled at every depth recurses
  without end.
- Location.FindOctantAtLocation: requires a non-zero `octantSize`, as does every operation
  that locates points and the search step and scheduling built on it. The source divides
  by `octantSize` without a check.
- Neighbors.AddNeighborChildren: an index past the child array adds nothing. The source would
  fail its bounds check, which cannot happen in a well-shaped tree.
- Neighbors.FindNeighbors: requires the cell's grid indices to be valid and the grid to be a
  box. The source indexes the grid without checking either.
- Neighbors.GetNeighbors: has no contract of its own. Its properties are
  `Neighbors.GetNeighborsAreProbes` and `Neighbors.NeighborsAreLeaves`.
- PriorityQueue.Top: the nodes are a sequence in insertion order, and `Top`/`Pop` take the
  first node of least priority. The source's binary heap may pick a different node among
  equal priorities. The contracts promise only a node of least priority.
- VoxelGrid.TickDynamicCollisionUpdates: requires a non-negative maximum level, as
  `VoxelGrid.GenerateVoxelGrid` does. Below 0 the source's level test never stops the
  subdivision of a level-0 cell, which then recurses without end wherever cells stay
  overlapped and unfilled at every depth.
- Scheduler.TickPathfindingUpdates: the loop also stops at the end of the list. The source
  fixes its bound before swap-removals and would index past the end.
- Scheduler.TickPathfindingUpdates: the order of the queries left in the list is stated only
  as a multiset. The completed queries are returned as an extra output, which the source
  discards.
- Scheduler.ProcessTask: requires the query to be active: `NotStarted`, no path yet, and the
  search invariant. Every query `SchedulePathfindingTask` adds is active, and the tick keeps
  the list active.

=== FILE: collision.dfy ===
/**
 * `CheckOctantCollision`: the occupancy test of one cell. The physics overlap query is an
 * input (`Physics`); the estimate samples a 5x5x5 grid of sub-cells against the bounding boxes
 * the query returned and stops early once enough sub-cells are occupied.
 */
module Collision {
  import opened Geometry
  import opened Octree

  /** What the engine's overlap query reports for a box: whether anything overlaps it, and
      the bounding box of every overlapping actor. */
  datatype OverlapResult = OverlapResult(overlapped: bool, boxes: seq<Box>)

  /** The overlap query, asked with a cell's center and half-extent. */
  type Physics = (Vec3, Vec3) -> OverlapResult

  const SamplesPerAxis: int := 5
  const TotalCellCount: int := 125

  /** `countUntilEarlyExit`: the percentage of `TotalCellCount`, truncated to an integer
      (computed over reals; the source's float product is not modelled). */
  function EarlyExitCount(percentUntilConsideredFull: real): int
  {
    TruncToInt(TotalCellCount as real * (percentUntilConsideredFull * 0.01))
  }

  /** Over reals, the default of 80 percent gives 100 sub-cells. */
  lemma DefaultEarlyExitCount()
    ensures EarlyExitCount(80.0) == 100
  {
  }

  /** Round to nearest, ties to even, within one binade of single precision: `m * ulp` is the
      float nearest to `x`, where `ulp` is the spacing of the 24-bit significands there. */
  predicate RoundsToF32(x: real, m: int, ulp: real)
  {
    var err := if x >= m as real * ulp then x - m as real * ulp else m as real * ulp - x;
    && 0x80_0000 <= m < 0x100_0000
    && (err < ulp / 2.0 || (err == ulp / 2.0 && m % 2 == 0))
  }

  /** `.01f`: the single-precision number nearest to 0.01. */
  const OneHundredthF32: real := 10737418.0 / 1073741824.0

  /** In the source's single-precision arithmetic the default of 80 percent gives 99, not 100:
      `80.f * .01f` is a tie that rounds down to even, and 125 times that falls just short of
      100 before the conversion truncates it. */
  lemma DefaultEarlyExitCountF32()
    ensures RoundsToF32(0.01, 10737418, 1.0 / 1073741824.0)
    ensures var p := 13421772.0 / 16777216.0;
      && RoundsToF32(80.0 * OneHundredthF32, 13421772, 1.0 / 16777216.0)
      && RoundsToF32(TotalCellCount as real * p, 13107199, 1.0 / 131072.0)
      && TruncToInt(13107199.0 / 131072.0) == 99
  {
  }

  /** The box of sub-cell (x, y, z): a fifth of the cell along each axis. */
  function SampleBox(o: Octant, x: int, y: int, z: int): Box
  {
    var fractionExtent := Scale(o.extent, 0.2);
    var minBounds := Sub(o.center, o.extent);
    var maxBounds := Add(o.center, o.extent);
    var d := Sub(maxBounds, minBounds);
    var cellSize := Vec3(d.x / 5.0, d.y / 5.0, d.z / 5.0);
    var cellCenter := Add(minBounds, Mul(Vec3(x as real + 0.5, y as real + 0.5, z as real + 0.5), cellSize));
    Box(Sub(cellCenter, fractionExtent), Add(cellCenter, fractionExtent))
  }

  /** Sub-cells are visited X-major, then Y, then Z: sample `s` is (s / 25, s / 5 % 5, s % 5). */
  function SampleBoxAt(o: Octant, s: int): Box
  {
    SampleBox(o, s / 25, (s / 5) % 5, s % 5)
  }

  /** A sub-cell is occupied when at least one overlapping actor's box meets it. */
  predicate SampleOccupied(o: Octant, boxes: seq<Box>, s: int)
  {
    exists j :: 0 <= j < |boxes| && Intersects(SampleBoxAt(o, s), boxes[j])
  }

  /** How many of the first `n` sub-cells are occupied; each counts at most once. */
  function OccupiedBefore(o: Octant, boxes: seq<Box>, n: nat): (c: nat)
    ensures c <= n
  {
    if n == 0 then 0
    else OccupiedBefore(o, boxes, n - 1) + (if SampleOccupied(o, boxes, n - 1) then 1 else 0)
  }

  lemma {:induction false} OccupiedBeforeMonotone(o: Octant, boxes: seq<Box>, m: nat, n: nat)
    requires m <= n
    ensures OccupiedBefore(o, boxes, m) <= OccupiedBefore(o, boxes, n)
    decreases n - m
  {
    if m < n {
      OccupiedBeforeMonotone(o, boxes, m, n - 1);
    }
  }

  /** The verdict of the early-exit loop. The count is compared with the threshold before
      each of the 125 samples and never after the last one, so only the first 124 samples
      can make a cell count as filled. */
  predicate Filled(o: Octant, r: OverlapResult, countUntilEarlyExit: int)
  {
    r.overlapped && OccupiedBefore(o, r.boxes, TotalCellCount - 1) >= countUntilEarlyExit
  }

  /** Any overlap marks the cell blocked; otherwise its status is left as it was. */
  function StatusAfterCheck(o: Octant, r: OverlapResult): Status
  {
    if r.overlapped then NonNavigable else o.status
  }

  /** Sample (x, y, z) is visited as the (25x + 5y + z)-th. */
  lemma SampleIndexOrder(o: Octant, x: int, y: int, z: int)
    requires 0 <= x < 5 && 0 <= y < 5 && 0 <= z < 5
    ensures SampleBoxAt(o, 25 * x + 5 * y + z) == SampleBox(o, x, y, z)
  {
    SampleIndexDigits(x, y, z);
  }

  /** The base-5 digits of 25x + 5y + z are x, y and z. */
  lemma SampleIndexDigits(x: int, y: int, z: int)
    requires 0 <= x < 5 && 0 <= y < 5 && 0 <= z < 5
    ensures var s := 25 * x + 5 * y + z; s / 25 == x && (s / 5) % 5 == y && s % 5 == z
  {
    var s := 25 * x + 5 * y + z;
    assert s / 5 == 5 * x + y;
    assert s / 25 == x;
  }

  /** The scan over the overlapping actors' boxes, which stops at the first hit. */
  method AnyIntersects(b: Box, boxes: seq<Box>) returns (hit: bool)
    ensures hit <==> exists j :: 0 <= j < |boxes| && Intersects(b, boxes[j])
  {
    hit := false;
    var j := 0;
    while j < |boxes| && !hit
      invariant 0 <= j <= |boxes|
      invariant hit ==> j < |boxes| && Intersects(b, boxes[j])
      invariant forall k :: 0 <= k < j ==> !Intersects(b, boxes[k])
      decreases |boxes| - j, if hit then 0 else 1
    {
      if Intersects(b, boxes[j]) {
        hit := true;
      } else {
        j := j + 1;
      }
    }
  }

  /** The test of sub-cell (x, y, z) against the overlapping actors' boxes. */
  method TestSample(o: Octant, boxes: seq<Box>, x: int, y: int, z: int) returns (hit: bool)
    requires 0 <= x < 5 && 0 <= y < 5 && 0 <= z < 5
    ensures hit <==> SampleOccupied(o, boxes, 25 * x + 5 * y + z)
  {
    SampleIndexOrder(o, x, y, z);
    hit := AnyIntersects(SampleBox(o, x, y, z), boxes);
  }

  /** Sub-cell (x, y, z), the `s`-th visited, checked and counted. */
  method CountSample(o: Octant, boxes: seq<Box>, x: int, y: int, z: int, ghost s: nat, count: int) returns (count': int)
    requires 0 <= x < 5 && 0 <= y < 5 && 0 <= z < 5 && s == 25 * x + 5 * y + z
    requires count == OccupiedBefore(o, boxes, s)
    ensures count' == OccupiedBefore(o, boxes, s + 1)
  {
    var hit := TestSample(o, boxes, x, y, z);
    count' := if hit then count + 1 else count;
  }

  /** The innermost loop of `CheckOctantCollision`: samples (x, y, 0) to (x, y, 4), with the
      early-exit test before each; `first` is the number of samples visited before the row.
      `exit` reports an early return. */
  method ScanRow(o: Octant, boxes: seq<Box>, x: int, y: int, ghost first: nat, occupied: int,
                 countUntilEarlyExit: int)
    returns (exit: bool, count: int)
    requires 0 <= x < 5 && 0 <= y < 5 && first == 25 * x + 5 * y
    requires occupied == OccupiedBefore(o, boxes, first)
    requires first > 0 ==> OccupiedBefore(o, boxes, first - 1) < countUntilEarlyExit
    ensures exit ==> OccupiedBefore(o, boxes, TotalCellCount - 1) >= countUntilEarlyExit
    ensures !exit ==> count == OccupiedBefore(o, boxes, first + 5)
    ensures !exit ==> OccupiedBefore(o, boxes, first + 4) < countUntilEarlyExit
  {
    count := occupied;
    exit := false;
    var z := 0;
    ghost var s: nat := first;
    while z < SamplesPerAxis
      invariant 0 <= z <= 5 && s == first + z
      invariant count == OccupiedBefore(o, boxes, s)
      invariant s > 0 ==> OccupiedBefore(o, boxes, s - 1) < countUntilEarlyExit
    {
      if count >= countUntilEarlyExit {
        OccupiedBeforeMonotone(o, boxes, s, TotalCellCount - 1);
        exit := true;
        return;
      }
      count := CountSample(o, boxes, x, y, z, s, count);
      z, s := z + 1, s + 1;
    }
  }

  /** The middle loop of `CheckOctantCollision`: rows (x, 0) to (x, 4); `first` is the number
      of samples visited before the plane. */
  method ScanPlane(o: Octant, boxes: seq<Box>, x: int, ghost first: nat, occupied: int, countUntilEarlyExit: int)
    returns (exit: bool, count: int)
    requires 0 <= x < 5 && first == 25 * x
    requires occupied == OccupiedBefore(o, boxes, first)
    requires first > 0 ==> OccupiedBefore(o, boxes, first - 1) < countUntilEarlyExit
    ensures exit ==> OccupiedBefore(o, boxes, TotalCellCount - 1) >= countUntilEarlyExit
    ensures !exit ==> count == OccupiedBefore(o, boxes, first + 25)
    ensures !exit ==> OccupiedBefore(o, boxes, first + 24) < countUntilEarlyExit
  {
    count := occupied;
    exit := false;
    var y := 0;
    ghost var s: nat := first;
    while y < SamplesPerAxis
      invariant 0 <= y <= 5 && s == first + 5 * y
      invariant count == OccupiedBefore(o, boxes, s)
      invariant s > 0 ==> OccupiedBefore(o, boxes, s - 1) < countUntilEarlyExit
    {
      exit, count := ScanRow(o, boxes, x, y, s, count, countUntilEarlyExit);
      if exit {
        return;
      }
      y, s := y + 1, s + 5;
    }
  }

  /** `CheckOctantCollision`, as the source's loops: returns whether the cell counts as
      filled, and the cell's status after the check. */
  method CheckOctantCollision(o: Octant, physics: Physics, countUntilEarlyExit: int)
    returns (filled: bool, status: Status)
    ensures filled == Filled(o, physics(o.center, o.extent), countUntilEarlyExit)
    ensures status == StatusAfterCheck(o, physics(o.center, o.extent))
  {
    var result := physics(o.center, o.extent);
    var boxes := result.boxes;
    status := o.status;
    filled := false;
    if !result.overlapped {
      return;
    }
    status := NonNavigable;
    var occupied := 0;
    var x := 0;
    ghost var s: nat := 0;
    while x < SamplesPerAxis
      invariant 0 <= x <= 5 && s == 25 * x
      invariant occupied == OccupiedBefore(o, boxes, s)
      invariant s > 0 ==> OccupiedBefore(o, boxes, s - 1) < countUntilEarlyExit
    {
      var exit;
      exit, occupied := ScanPlane(o, boxes, x, s, occupied, countUntilEarlyExit);
      if exit {
        filled := true;
        return;
      }
      x, s := x + 1, s + 25;
    }
  }

  /** A threshold of all 125 sub-cells is never reached, even by a completely full cell. */
  lemma FullThresholdNeverFilled(o: Octant, r: OverlapResult)
    ensures !Filled(o, r, TotalCellCount)
  {
  }

  /** A threshold of zero or less marks every overlapped cell filled before any sampling. */
  lemma NonPositiveThresholdFillsOnOverlap(o: Octant, r: OverlapResult, countUntilEarlyExit: int)
    requires countUntilEarlyExit <= 0
    ensures Filled(o, r, countUntilEarlyExit) <==> r.overlapped
  {
  }
}

=== FILE: geometry.dfy ===
/**
 * Three-dimensional vectors, axis-aligned boxes and the float-to-int conversion of the
 * navmesh, over exact reals (float rounding is not modelled).
 */
module Geometry {

  datatype Vec3 = Vec3(x: real, y: real, z: real)

  const Zero: Vec3 := Vec3(0.0, 0.0, 0.0)

  function Add(a: Vec3, b: Vec3): Vec3
  {
    Vec3(a.x + b.x, a.y + b.y, a.z + b.z)
  }

  function Sub(a: Vec3, b: Vec3): Vec3
  {
    Vec3(a.x - b.x, a.y - b.y, a.z - b.z)
  }

  function Scale(a: Vec3, s: real): Vec3
  {
    Vec3(a.x * s, a.y * s, a.z * s)
  }

  /** Component-wise product, as `FVector * FVector`. */
  function Mul(a: Vec3, b: Vec3): Vec3
  {
    Vec3(a.x * b.x, a.y * b.y, a.z * b.z)
  }

  /** An axis-aligned box given by its two corners, as `FBox`. */
  datatype Box = Box(min: Vec3, max: Vec3)

  /** The box of a cell: its center plus and minus its half-extent. */
  function BoxAround(center: Vec3, extent: Vec3): Box
  {
    Box(Sub(center, extent), Add(center, extent))
  }

  /** Closed containment: a point on a face is inside. */
  predicate Contains(b: Box, p: Vec3)
  {
    && b.min.x <= p.x && p.x <= b.max.x
    && b.min.y <= p.y && p.y <= b.max.y
    && b.min.z <= p.z && p.z <= b.max.z
  }

  /** Closed overlap test: boxes that only touch on a face or an edge overlap. */
  predicate Intersects(a: Box, b: Box)
  {
    && a.min.x <= b.max.x && a.max.x >= b.min.x
    && a.min.y <= b.max.y && a.max.y >= b.min.y
    && a.min.z <= b.max.z && a.max.z >= b.min.z
  }

  /** Conversion of a float to `int32`: truncation toward zero (overflow not modelled). */
  function TruncToInt(r: real): (n: int)
    ensures r >= 0.0 ==> n >= 0 && n as real <= r < n as real + 1.0
    ensures r <= 0.0 ==> n <= 0 && n as real - 1.0 < r <= n as real
  {
    if r >= 0.0 then r.Floor else -((-r).Floor)
  }

  /** Truncation maps the whole open interval (-1, 1) to zero, so a point up to one cell below
      the grid origin still gets index 0. */
  lemma TruncNearZero(r: real)
    requires -1.0 < r < 1.0
    ensures TruncToInt(r) == 0
  {
  }
}

=== FILE: location.dfy ===
/**
 * Point location: `FindOctantAtLocation` takes a point to a root by truncating division, then
 * `FindOctantWithinChildren` descends into the first child whose closed box holds the point.
 * `FindOctantsAroundMesh` locates every integer point of a mesh's bounding box.
 */
module Location {
  import opened Wrappers
  import opened Geometry
  import opened Octree
  import opened VoxelGrid

  /** The root coordinates a point maps to: `int32((p - actorLocation) / octantSize)` per axis,
      truncating toward zero. */
  function RootIndexOf(nav: Navmesh, loc: Vec3): (int, int, int)
    requires nav.octantSize != 0.0
  {
    (TruncToInt((loc.x - nav.location.x) / nav.octantSize),
     TruncToInt((loc.y - nav.location.y) / nav.octantSize),
     TruncToInt((loc.z - nav.location.z) / nav.octantSize))
  }

  /** `children[i]` is the first child, from `from` on, whose closed box holds `loc`. */
  predicate FirstContaining(children: seq<Octant>, loc: Vec3, from: int, i: int)
  {
    && 0 <= from <= i < |children|
    && Contains(BoxOf(children[i]), loc)
    && forall j :: from <= j < i ==> !Contains(BoxOf(children[j]), loc)
  }

  /** `FindOctantWithinChildren`: the first child (in index order) whose closed box holds the
      point; a subdivided child is searched in turn, without falling back to its siblings.
      Only leaves are returned. */
  function FindOctantWithinChildren(loc: Vec3, children: seq<Octant>): (r: Option<Octant>)
    ensures r.Some? ==> r.value.status != HasChildren && Contains(BoxOf(r.value), loc)
    ensures r.Some? ==> exists i :: FirstContaining(children, loc, 0, i) && Within(r.value, children[i])
    decreases children, 1
  {
    ScanChildren(loc, children, 0)
  }

  /** The loop of `FindOctantWithinChildren`, from child `from` on. */
  function ScanChildren(loc: Vec3, children: seq<Octant>, from: nat): (r: Option<Octant>)
    ensures r.Some? ==> r.value.status != HasChildren && Contains(BoxOf(r.value), loc)
    ensures r.Some? ==> exists i :: FirstContaining(children, loc, from, i) && Within(r.value, children[i])
    decreases children, 0, |children| - from
  {
    if from >= |children| then None
    else
      var child := children[from];
      if Contains(BoxOf(child), loc) then
        if child.status == HasChildren then FindOctantWithinChildren(loc, child.children)
        else Some(child)
      else
        ScanChildren(loc, children, from + 1)
  }

  /** In a well-shaped tree the descent cannot fail once some child holds the point: the
      children of a subdivided cell cover its box, so the search always finds a leaf. */
  lemma {:induction false} WithinChildrenSucceeds(loc: Vec3, children: seq<Octant>)
    requires forall i :: 0 <= i < |children| ==> Shape(children[i])
    requires exists i :: 0 <= i < |children| && Contains(BoxOf(children[i]), loc)
    ensures FindOctantWithinChildren(loc, children).Some?
    decreases children, 1
  {
    ScanChildrenSucceeds(loc, children, 0);
  }

  /** The same from child `from` on. */
  lemma {:induction false} ScanChildrenSucceeds(loc: Vec3, children: seq<Octant>, from: nat)
    requires forall i :: 0 <= i < |children| ==> Shape(children[i])
    requires exists i :: from <= i < |children| && Contains(BoxOf(children[i]), loc)
    ensures ScanChildren(loc, children, from).Some?
    decreases children, 0, |children| - from
  {
    var child := children[from];
    if Contains(BoxOf(child), loc) {
      if child.status == HasChildren {
        ChildrenCoverParent(child, loc);
        WithinChildrenSucceeds(loc, child.children);
      }
    } else {
      ScanChildrenSucceeds(loc, children, from + 1);
    }
  }

  /** `FindOctantAtLocation`. An index outside the grid gives null; a subdivided root is
      searched with `FindOctantWithinChildren`; a leaf root is returned without testing its
      box. The result is never a subdivided cell. */
  function FindOctantAtLocation(nav: Navmesh, loc: Vec3): (r: Option<Octant>)
    requires nav.octantSize != 0.0
    ensures var (x, y, z) := RootIndexOf(nav, loc);
      && (!ValidIndex(nav.octants, x, y, z) ==> r == None)
      && (r.Some? ==> ValidIndex(nav.octants, x, y, z)
                      && r.value.status != HasChildren
                      && Within(r.value, nav.octants[x][y][z]))
      && (r.Some? && nav.octants[x][y][z].status == HasChildren ==> Contains(BoxOf(r.value), loc))
      && (ValidIndex(nav.octants, x, y, z) && nav.octants[x][y][z].status != HasChildren ==>
            r == Some(nav.octants[x][y][z]))
  {
    var (x, y, z) := RootIndexOf(nav, loc);
    if !ValidIndex(nav.octants, x, y, z) then None
    else
      var root := nav.octants[x][y][z];
      if root.status == HasChildren then FindOctantWithinChildren(loc, root.children)
      else Some(root)
  }

  /** One axis of the root index: a coordinate inside the grid's extent on that axis maps to
      the cell whose closed interval holds it. */
  lemma AxisIndex(p: real, origin: real, size: real, n: int, i: int)
    requires size > 0.0 && origin <= p < origin + size * n as real
    requires i == TruncToInt((p - origin) / size)
    ensures 0 <= i < n && size * i as real + origin <= p <= size * i as real + origin + size
  {
    var d := p - origin;
    var r := d / size;
    DivNonNegative(d, size);
    var lo := i as real;
    DivTimes(d, size);
    ScaledInterval(lo, r, d, size);
    assert size * lo == lo * size;
    assert size * n as real == n as real * size;
    MulReflectsOrder(r, n as real, size);
  }

  lemma MulReflectsOrder(a: real, b: real, size: real)
    requires size > 0.0 && a * size < b * size
    ensures a < b
  {
  }

  lemma DivNonNegative(d: real, size: real)
    requires size > 0.0 && d >= 0.0
    ensures d / size >= 0.0
  {
  }

  lemma DivTimes(d: real, size: real)
    requires size != 0.0
    ensures d / size * size == d
  {
  }

  /** Scaling the bounds `lo <= r <= lo + 1` of `r = d / size` by a positive `size`. */
  lemma ScaledInterval(lo: real, r: real, d: real, size: real)
    requires size > 0.0 && r * size == d && lo <= r <= lo + 1.0
    ensures lo * size <= d <= lo * size + size
  {
    MulMonotone(lo, r, size);
    var hi := lo + 1.0;
    MulMonotone(r, hi, size);
    assert hi * size == lo * size + size;
    assert d <= hi * size;
  }

  lemma MulMonotone(a: real, b: real, size: real)
    requires size > 0.0 && a <= b
    ensures a * size <= b * size
  {
  }

  /** Point-location totality: with a grid laid out as the build lays it out, every point of
      the volume (half-open at the far faces) is located to a leaf whose closed box holds it. */
  lemma LocationIsTotal(nav: Navmesh, loc: Vec3, xN: int, yN: int, zN: int)
    requires nav.octantSize > 0.0
    requires Dims(nav.octants, xN, yN, zN)
    requires RootLayout(nav.octants, nav.location, nav.octantSize) && GridShape(nav.octants)
    requires nav.location.x <= loc.x < nav.location.x + nav.octantSize * xN as real
    requires nav.location.y <= loc.y < nav.location.y + nav.octantSize * yN as real
    requires nav.location.z <= loc.z < nav.location.z + nav.octantSize * zN as real
    ensures var r := FindOctantAtLocation(nav, loc);
      r.Some? && r.value.status != HasChildren && Contains(BoxOf(r.value), loc)
  {
    var (x, y, z) := RootIndexOf(nav, loc);
    RootHoldsPoint(nav, loc, xN, yN, zN);
    var root := nav.octants[x][y][z];
    if root.status == HasChildren {
      assert Shape(root);
      ChildrenCoverParent(root, loc);
      WithinChildrenSucceeds(loc, root.children);
    }
  }

  /** The first step of `LocationIsTotal`: the root the point maps to exists and its closed
      box holds the point. */
  lemma RootHoldsPoint(nav: Navmesh, loc: Vec3, xN: int, yN: int, zN: int)
    requires nav.octantSize > 0.0
    requires Dims(nav.octants, xN, yN, zN)
    requires RootLayout(nav.octants, nav.location, nav.octantSize)
    requires nav.location.x <= loc.x < nav.location.x + nav.octantSize * xN as real
    requires nav.location.y <= loc.y < nav.location.y + nav.octantSize * yN as real
    requires nav.location.z <= loc.z < nav.location.z + nav.octantSize * zN as real
    ensures var (x, y, z) := RootIndexOf(nav, loc);
      ValidIndex(nav.octants, x, y, z) && Contains(BoxOf(nav.octants[x][y][z]), loc)
  {
    var pos, size := nav.location, nav.octantSize;
    var x := TruncToInt((loc.x - pos.x) / size);
    var y := TruncToInt((loc.y - pos.y) / size);
    var z := TruncToInt((loc.z - pos.z) / size);
    assert RootIndexOf(nav, loc) == (x, y, z);
    AxisIndex(loc.x, pos.x, size, xN, x);
    AxisIndex(loc.y, pos.y, size, yN, y);
    AxisIndex(loc.z, pos.z, size, zN, z);
    RootAtIndexHolds(nav.octants, pos, size, xN, yN, zN, x, y, z, loc);
  }

  lemma RootAtIndexHolds(grid: Grid, pos: Vec3, size: real, xN: int, yN: int, zN: int,
                         x: int, y: int, z: int, loc: Vec3)
    requires Dims(grid, xN, yN, zN) && RootLayout(grid, pos, size)
    requires 0 <= x < xN && 0 <= y < yN && 0 <= z < zN
    requires size * x as real + pos.x <= loc.x <= size * x as real + pos.x + size
    requires size * y as real + pos.y <= loc.y <= size * y as real + pos.y + size
    requires size * z as real + pos.z <= loc.z <= size * z as real + pos.z + size
    ensures ValidIndex(grid, x, y, z) && Contains(BoxOf(grid[x][y][z]), loc)
  {
    assert ValidIndex(grid, x, y, z);
    RootBoxHolds(grid[x][y][z], pos, size, x, y, z, loc);
  }

  lemma RootBoxHolds(c: Octant, pos: Vec3, size: real, x: int, y: int, z: int, loc: Vec3)
    requires RootGeometry(c, pos, size, x, y, z)
    requires size * x as real + pos.x <= loc.x <= size * x as real + pos.x + size
    requires size * y as real + pos.y <= loc.y <= size * y as real + pos.y + size
    requires size * z as real + pos.z <= loc.z <= size * z as real + pos.z + size
    ensures Contains(BoxOf(c), loc)
  {
  }

  /** Truncation toward zero: a point less than one cell below the grid origin on every axis
      maps to root (0, 0, 0), and when that root is a leaf it is returned although the point
      lies outside the volume. */
  lemma BelowOriginMapsToFirstRoot(nav: Navmesh, loc: Vec3)
    requires nav.octantSize > 0.0
    requires -nav.octantSize < loc.x - nav.location.x < nav.octantSize
    requires -nav.octantSize < loc.y - nav.location.y < nav.octantSize
    requires -nav.octantSize < loc.z - nav.location.z < nav.octantSize
    ensures RootIndexOf(nav, loc) == (0, 0, 0)
    ensures ValidIndex(nav.octants, 0, 0, 0) && nav.octants[0][0][0].status != HasChildren
            ==> FindOctantAtLocation(nav, loc) == Some(nav.octants[0][0][0])
  {
    var s := nav.octantSize;
    DivBelowOne(loc.x - nav.location.x, s);
    DivBelowOne(loc.y - nav.location.y, s);
    DivBelowOne(loc.z - nav.location.z, s);
    TruncNearZero((loc.x - nav.location.x) / s);
    TruncNearZero((loc.y - nav.location.y) / s);
    TruncNearZero((loc.z - nav.location.z) / s);
  }

  lemma DivBelowOne(d: real, s: real)
    requires s > 0.0 && -s < d < s
    ensures -1.0 < d / s < 1.0
  {
    var q := d / s;
    assert q * s == d;
    if q >= 1.0 { MulMonotone(1.0, q, s); }
    if q <= -1.0 { MulMonotone(q, -1.0, s); }
  }

  // ----- FindOctantsAroundMesh -----

  /** The integers the source's loop `for (int32 x = lo; x <= hi; x++)` visits: from `lo`
      truncated toward zero up to the last integer not above `hi`. */
  function AxisSamples(lo: real, hi: real): (xs: seq<int>)
    ensures forall k :: 0 <= k < |xs| ==> xs[k] == TruncToInt(lo) + k && xs[k] as real <= hi
    ensures TruncToInt(lo) as real <= hi ==> |xs| > 0
    ensures forall n: int :: TruncToInt(lo) <= n && n as real <= hi ==> n in xs
  {
    var start := TruncToInt(lo);
    var n := if hi.Floor >= start then hi.Floor - start + 1 else 0;
    var xs := seq(n, k requires 0 <= k < n => start + k);
    RunCovers(start, hi, xs);
    xs
  }

  /** The run `start, start + 1, ...` up to the floor of `hi` holds every integer in between. */
  lemma RunCovers(start: int, hi: real, xs: seq<int>)
    requires |xs| == (if hi.Floor >= start then hi.Floor - start + 1 else 0)
    requires forall k :: 0 <= k < |xs| ==> xs[k] == start + k
    ensures forall m: int :: start <= m && m as real <= hi ==> m in xs
  {
    forall m: int | start <= m && m as real <= hi
      ensures m in xs
    {
      assert xs[m - start] == m;
    }
  }

  function Flatten<T>(ss: seq<seq<T>>): (r: seq<T>)
    ensures forall a, b :: 0 <= a < |ss| && 0 <= b < |ss[a]| ==> ss[a][b] in r
    ensures forall t :: t in r ==> exists a :: 0 <= a < |ss| && t in ss[a]
  {
    if ss == [] then [] else ss[0] + Flatten(ss[1..])
  }

  /** The integer points the three nested loops visit, X-major. */
  function MeshSamplePoints(minBounds: Vec3, maxBounds: Vec3): seq<Vec3>
  {
    var xs := AxisSamples(minBounds.x, maxBounds.x);
    var ys := AxisSamples(minBounds.y, maxBounds.y);
    var zs := AxisSamples(minBounds.z, maxBounds.z);
    Flatten(seq(|xs|, a requires 0 <= a < |xs| =>
      Flatten(seq(|ys|, b requires 0 <= b < |ys| =>
        seq(|zs|, c requires 0 <= c < |zs| => Vec3(xs[a] as real, ys[b] as real, zs[c] as real))))))
  }

  predicate NoDuplicates<T(==)>(s: seq<T>)
  {
    forall i, j :: 0 <= i < j < |s| ==> s[i] != s[j]
  }

  /** The loop body of `FindOctantsAroundMesh`: add each located cell not already listed. */
  function CollectLocated(nav: Navmesh, points: seq<Vec3>, acc: seq<Octant>): (r: seq<Octant>)
    requires nav.octantSize != 0.0
    requires NoDuplicates(acc)
    ensures NoDuplicates(r)
    ensures forall c :: c in acc ==> c in r
    ensures acc <= r
    ensures forall c :: c in r ==> c in acc || exists p :: p in points && FindOctantAtLocation(nav, p) == Some(c)
    ensures forall p :: p in points && FindOctantAtLocation(nav, p).Some? ==> FindOctantAtLocation(nav, p).value in r
    decreases |points|
  {
    if points == [] then acc
    else
      var next := match FindOctantAtLocation(nav, points[0])
        case Some(c) => if c in acc then acc else acc + [c]
        case None => acc;
      CollectLocated(nav, points[1..], next)
  }

  /** `FindOctantsAroundMesh`: the distinct cells located at the integer points of the mesh's
      bounding box. */
  function FindOctantsAroundMesh(nav: Navmesh, boundsOrigin: Vec3, boxExtent: Vec3): (r: seq<Octant>)
    requires nav.octantSize != 0.0
    ensures NoDuplicates(r)
    ensures var points := MeshSamplePoints(Sub(boundsOrigin, boxExtent), Add(boundsOrigin, boxExtent));
      && (forall c :: c in r <==> exists p :: p in points && FindOctantAtLocation(nav, p) == Some(c))
      && (forall c :: c in r ==> c.status != HasChildren)
  {
    var points := MeshSamplePoints(Sub(boundsOrigin, boxExtent), Add(boundsOrigin, boxExtent));
    CollectLocated(nav, points, [])
  }
}

=== FILE: neighbors.dfy ===
/**
 * Neighbour lookup: `GetNeighbors` probes one point past each of the six faces of a cell and
 * `AddNeighborChildren` would expand a finer neighbour into its children on the shared face;
 * `FindNeighbors` is the plain root-index lookup.
 */
module Neighbors {
  import opened Wrappers
  import opened Geometry
  import opened Octree
  import opened VoxelGrid
  import opened Location

  /** The six probe directions, in the order `GetNeighbors` tries them. */
  datatype Direction = Left | Right | Back | Front | Bottom | Top

  /** The point probed in direction `d`: the cell's center moved by its X half-extent plus
      one unit (the X extent is used on every axis). */
  function ProbePoint(o: Octant, d: Direction): Vec3
  {
    var c := o.center;
    var offset := o.extent.x + 1.0;
    match d
    case Left => Vec3(c.x - offset, c.y, c.z)
    case Right => Vec3(c.x + offset, c.y, c.z)
    case Back => Vec3(c.x, c.y - offset, c.z)
    case Front => Vec3(c.x, c.y + offset, c.z)
    case Bottom => Vec3(c.x, c.y, c.z - offset)
    case Top => Vec3(c.x, c.y, c.z + offset)
  }

  /** The child indices `GetNeighbors` hands to `AddNeighborChildren`, as written. */
  function ChildIndicesToward(d: Direction): seq<int>
  {
    match d
    case Left => [0, 1, 4, 5]
    case Right => [2, 3, 6, 7]
    case Back => [1, 3, 5, 7]
    case Front => [0, 2, 4, 6]
    case Bottom => [4, 5, 6, 7]
    case Top => [0, 1, 2, 3]
  }

  /** Child `i` of a neighbour found in direction `d` touches the probing cell: for the left
      neighbour that is its +X half, for the right one its -X half, and so on. */
  predicate OnSharedFace(d: Direction, i: int)
  {
    match d
    case Left => XBit(i)
    case Right => !XBit(i)
    case Back => YBit(i)
    case Front => !YBit(i)
    case Bottom => ZBit(i)
    case Top => !ZBit(i)
  }

  /** The index sets for the X and Y directions select children by the other axis's bit: the
      left set is the -Y half, the right set the +Y half, the back set the +X half and the
      front set the -X half. Only the Z sets pick the shared face. */
  lemma IndexSetsSelectWrongAxis(i: int)
    requires 0 <= i < 8
    ensures i in ChildIndicesToward(Left) <==> !YBit(i)
    ensures i in ChildIndicesToward(Right) <==> YBit(i)
    ensures i in ChildIndicesToward(Back) <==> XBit(i)
    ensures i in ChildIndicesToward(Front) <==> !XBit(i)
    ensures i in ChildIndicesToward(Bottom) <==> OnSharedFace(Bottom, i)
    ensures i in ChildIndicesToward(Top) <==> OnSharedFace(Top, i)
  {
  }

  /** Consequently each X and Y set contains a child off the shared face. */
  lemma IndexSetsMissSharedFace(d: Direction)
    requires d in {Left, Right, Back, Front}
    ensures exists i :: i in ChildIndicesToward(d) && !OnSharedFace(d, i)
  {
    match d
    case Left => assert 0 in ChildIndicesToward(d) && !OnSharedFace(d, 0);
    case Right => assert 3 in ChildIndicesToward(d) && !OnSharedFace(d, 3);
    case Back => assert 1 in ChildIndicesToward(d) && !OnSharedFace(d, 1);
    case Front => assert 2 in ChildIndicesToward(d) && !OnSharedFace(d, 2);
  }

  /** `AddNeighborChildren`: a childless cell is listed itself; otherwise each listed child
      index is expanded recursively with the same index set. An index past the child array
      adds nothing here; the source would fail its bounds check, which cannot happen in a
      well-shaped tree. Only childless cells are ever listed, all inside `n`. */
  function AddNeighborChildren(n: Octant, indices: seq<int>): (r: seq<Octant>)
    ensures |n.children| == 0 ==> r == [n]
    ensures forall c :: c in r ==> |c.children| == 0 && Within(c, n)
    decreases n, 1
  {
    if |n.children| == 0 then [n]
    else ExpandChildren(n, indices, 0)
  }

  /** The loop of `AddNeighborChildren` over the index set, from position `k` on. */
  function ExpandChildren(n: Octant, indices: seq<int>, k: nat): (r: seq<Octant>)
    ensures forall c :: c in r ==> |c.children| == 0 && Within(c, n)
    decreases n, 0, |indices| - k
  {
    if k >= |indices| then []
    else
      var i := indices[k];
      var here := if 0 <= i < |n.children| then AddNeighborChildren(n.children[i], indices) else [];
      here + ExpandChildren(n, indices, k + 1)
  }

  /** What one direction contributes: the located cell, or its children on the chosen face
      when it is deeper than the probing cell. */
  function NeighborsToward(nav: Navmesh, o: Octant, d: Direction): (r: seq<Octant>)
    requires nav.octantSize != 0.0
    ensures var n := FindOctantAtLocation(nav, ProbePoint(o, d));
      && (n.None? ==> r == [])
      && (n.Some? ==> forall c :: c in r ==> Within(c, n.value))
      && (n.Some? && o.level >= n.value.level ==> r == [n.value])
  {
    match FindOctantAtLocation(nav, ProbePoint(o, d))
    case None => []
    case Some(n) =>
      if o.level < n.level then AddNeighborChildren(n, ChildIndicesToward(d)) else [n]
  }

  /** `GetNeighbors`: left, right, back, front, bottom, top, in that order. */
  function GetNeighbors(nav: Navmesh, o: Octant): seq<Octant>
    requires nav.octantSize != 0.0
  {
    NeighborsToward(nav, o, Left) + NeighborsToward(nav, o, Right)
    + NeighborsToward(nav, o, Back) + NeighborsToward(nav, o, Front)
    + NeighborsToward(nav, o, Bottom) + NeighborsToward(nav, o, Top)
  }

  /** The six probes' results, as a reference for `GetNeighbors`. */
  function ProbeResults(nav: Navmesh, o: Octant): seq<Octant>
    requires nav.octantSize != 0.0
  {
    ToSeq(FindOctantAtLocation(nav, ProbePoint(o, Left)))
    + ToSeq(FindOctantAtLocation(nav, ProbePoint(o, Right)))
    + ToSeq(FindOctantAtLocation(nav, ProbePoint(o, Back)))
    + ToSeq(FindOctantAtLocation(nav, ProbePoint(o, Front)))
    + ToSeq(FindOctantAtLocation(nav, ProbePoint(o, Bottom)))
    + ToSeq(FindOctantAtLocation(nav, ProbePoint(o, Top)))
  }

  /** In a well-shaped grid point location returns childless leaves. */
  lemma LocatedIsChildless(nav: Navmesh, p: Vec3)
    requires nav.octantSize != 0.0 && GridShape(nav.octants)
    ensures var r := FindOctantAtLocation(nav, p);
      r.Some? ==> r.value.children == [] && r.value.status != HasChildren
  {
    var r := FindOctantAtLocation(nav, p);
    if r.Some? {
      var (x, y, z) := RootIndexOf(nav, p);
      WithinShape(r.value, nav.octants[x][y][z]);
    }
  }

  lemma NeighborsTowardIsProbe(nav: Navmesh, o: Octant, d: Direction)
    requires nav.octantSize != 0.0 && GridShape(nav.octants)
    ensures NeighborsToward(nav, o, d) == ToSeq(FindOctantAtLocation(nav, ProbePoint(o, d)))
  {
    LocatedIsChildless(nav, ProbePoint(o, d));
  }

  /** Six pieces of at most one element each. */
  lemma SixSingletons<T>(a: seq<T>, b: seq<T>, c: seq<T>, d: seq<T>, e: seq<T>, f: seq<T>)
    requires |a| <= 1 && |b| <= 1 && |c| <= 1 && |d| <= 1 && |e| <= 1 && |f| <= 1
    ensures |a + b + c + d + e + f| <= 6
    ensures forall x :: x in a + b + c + d + e + f ==>
      x in a || x in b || x in c || x in d || x in e || x in f
  {
  }

  /** Since point location returns only leaves, the expansion into children never happens:
      each direction gives at most the one located cell, in the order left, right, back,
      front, bottom, top. */
  lemma GetNeighborsAreProbes(nav: Navmesh, o: Octant)
    requires nav.octantSize != 0.0 && GridShape(nav.octants)
    ensures GetNeighbors(nav, o) == ProbeResults(nav, o)
  {
    NeighborsTowardIsProbe(nav, o, Left);
    NeighborsTowardIsProbe(nav, o, Right);
    NeighborsTowardIsProbe(nav, o, Back);
    NeighborsTowardIsProbe(nav, o, Front);
    NeighborsTowardIsProbe(nav, o, Bottom);
    NeighborsTowardIsProbe(nav, o, Top);
  }

  /** Hence a cell has at most six neighbours, all of them childless leaves. */
  lemma NeighborsAreLeaves(nav: Navmesh, o: Octant)
    requires nav.octantSize != 0.0 && GridShape(nav.octants)
    ensures |GetNeighbors(nav, o)| <= 6
    ensures forall c :: c in GetNeighbors(nav, o) ==> c.children == [] && c.status != HasChildren
  {
    GetNeighborsAreProbes(nav, o);
    var l := FindOctantAtLocation(nav, ProbePoint(o, Left));
    var r := FindOctantAtLocation(nav, ProbePoint(o, Right));
    var b := FindOctantAtLocation(nav, ProbePoint(o, Back));
    var f := FindOctantAtLocation(nav, ProbePoint(o, Front));
    var d := FindOctantAtLocation(nav, ProbePoint(o, Bottom));
    var t := FindOctantAtLocation(nav, ProbePoint(o, Top));
    LocatedIsChildless(nav, ProbePoint(o, Left));
    LocatedIsChildless(nav, ProbePoint(o, Right));
    LocatedIsChildless(nav, ProbePoint(o, Back));
    LocatedIsChildless(nav, ProbePoint(o, Front));
    LocatedIsChildless(nav, ProbePoint(o, Bottom));
    LocatedIsChildless(nav, ProbePoint(o, Top));
    SixSingletons(ToSeq(l), ToSeq(r), ToSeq(b), ToSeq(f), ToSeq(d), ToSeq(t));
  }

  // ----- FindNeighbors -----

  /** Grid coordinates one step apart along exactly one axis. */
  predicate AxisAdjacent(i: int, j: int, k: int, x: int, y: int, z: int)
  {
    || (j == y && k == z && (i == x - 1 || i == x + 1))
    || (i == x && k == z && (j == y - 1 || j == y + 1))
    || (i == x && j == y && (k == z - 1 || k == z + 1))
  }

  /** `FindNeighbors`: the roots next to the cell's root along each axis, where the grid has
      them. The source indexes the grid without further checks, so it needs the cell's grid
      indices to be valid and the grid to be a box. */
  function FindNeighbors(grid: Grid, o: Octant): (r: seq<Octant>)
    requires ValidIndex(grid, o.xIndex, o.yIndex, o.zIndex)
    requires Dims(grid, |grid|, |grid[o.xIndex]|, |grid[o.xIndex][o.yIndex]|)
    ensures |r| <= 6
  {
    var x, y, z := o.xIndex, o.yIndex, o.zIndex;
    (if x - 1 >= 0 then [grid[x - 1][y][z]] else [])
    + (if x + 1 < |grid| then [grid[x + 1][y][z]] else [])
    + (if y - 1 >= 0 then [grid[x][y - 1][z]] else [])
    + (if y + 1 < |grid[x]| then [grid[x][y + 1][z]] else [])
    + (if z - 1 >= 0 then [grid[x][y][z - 1]] else [])
    + (if z + 1 < |grid[x][y]| then [grid[x][y][z + 1]] else [])
  }

  /** Every cell `FindNeighbors` lists is a root one step away along one axis. */
  lemma FindNeighborsAreAdjacent(grid: Grid, o: Octant)
    requires ValidIndex(grid, o.xIndex, o.yIndex, o.zIndex)
    requires Dims(grid, |grid|, |grid[o.xIndex]|, |grid[o.xIndex][o.yIndex]|)
    ensures forall c :: c in FindNeighbors(grid, o) ==> exists i, j, k ::
      ValidIndex(grid, i, j, k) && c == grid[i][j][k] && AxisAdjacent(i, j, k, o.xIndex, o.yIndex, o.zIndex)
  {
    var x, y, z := o.xIndex, o.yIndex, o.zIndex;
    forall c | c in FindNeighbors(grid, o)
      ensures exists i, j, k :: ValidIndex(grid, i, j, k) && c == grid[i][j][k] && AxisAdjacent(i, j, k, x, y, z)
    {
      if x - 1 >= 0 && c == grid[x - 1][y][z] {
        assert ValidIndex(grid, x - 1, y, z);
      } else if x + 1 < |grid| && c == grid[x + 1][y][z] {
        assert ValidIndex(grid, x + 1, y, z);
      } else if y - 1 >= 0 && c == grid[x][y - 1][z] {
        assert ValidIndex(grid, x, y - 1, z);
      } else if y + 1 < |grid[x]| && c == grid[x][y + 1][z] {
        assert ValidIndex(grid, x, y + 1, z);
      } else if z - 1 >= 0 && c == grid[x][y][z - 1] {
        assert ValidIndex(grid, x, y, z - 1);
      } else {
        assert ValidIndex(grid, x, y, z + 1);
      }
    }
  }

  /** Every root one step away along one axis is listed. */
  lemma FindNeighborsAreComplete(grid: Grid, o: Octant)
    requires ValidIndex(grid, o.xIndex, o.yIndex, o.zIndex)
    requires Dims(grid, |grid|, |grid[o.xIndex]|, |grid[o.xIndex][o.yIndex]|)
    ensures forall i, j, k ::
      (ValidIndex(grid, i, j, k) && AxisAdjacent(i, j, k, o.xIndex, o.yIndex, o.zIndex)) ==> grid[i][j][k] in FindNeighbors(grid, o)
  {
  }
}

=== FILE: octree.dfy ===
/**
 * The cell of the navmesh octree (`FOctant`) and the structural facts every subdivided cell
 * keeps: exactly eight children, each a half-size cube in one octant of its parent.
 *
 * A cell is an immutable value that owns its children. The source also keeps a raw `parent`
 * pointer, which nothing reads; the model has no parent field.
 */
module Octree {
  import opened Geometry

  /** `ENavigabilityStatus`: a leaf is passable or blocked; a subdivided cell is neither. */
  datatype Status = Navigable | NonNavigable | HasChildren

  datatype Octant = Octant(
    id: int,
    children: seq<Octant>,
    center: Vec3,
    extent: Vec3,
    xIndex: int,
    yIndex: int,
    zIndex: int,
    level: int,
    index: int,
    cost: real,
    status: Status)

  /** The value standing for the `id` the source leaves uninitialised (it never assigns
      ids to child cells). No operation of the model reads it. */
  const UnassignedId: int := -1

  /** A default-constructed `FOctant`: only `level`, `index`, `cost` and the status have
      initialisers in the source; the other fields get placeholders. */
  function NewOctant(): (o: Octant)
    ensures o.level == 0 && o.index == 0 && o.cost == 1.0
    ensures o.status == Navigable && o.children == []
  {
    Octant(UnassignedId, [], Zero, Zero, 0, 0, 0, 0, 0, 1.0, Navigable)
  }

  /** `FOctant::Reset`: drop the children and restore the level, cost and status defaults. */
  function Reset(o: Octant): (r: Octant)
    ensures r.children == [] && r.level == 0 && r.cost == 1.0 && r.status == Navigable
    ensures r.id == o.id && r.center == o.center && r.extent == o.extent && r.index == o.index
    ensures r.xIndex == o.xIndex && r.yIndex == o.yIndex && r.zIndex == o.zIndex
  {
    o.(children := [], level := 0, cost := 1.0, status := Navigable)
  }

  /** A reset cell agrees with a default-constructed one on every field except its identity
      and geometry; note that its child `index` is kept rather than reset to 0. */
  lemma ResetRestoresDefaults(o: Octant)
    ensures var d := NewOctant();
      Reset(o).(id := d.id, center := d.center, extent := d.extent, index := d.index,
                xIndex := d.xIndex, yIndex := d.yIndex, zIndex := d.zIndex) == d
  {
  }

  /** Bit 0 of a child index selects the +X half, bit 1 the +Y half, bit 2 the +Z half. */
  predicate XBit(i: int) { i % 2 == 1 }
  predicate YBit(i: int) { (i / 2) % 2 == 1 }
  predicate ZBit(i: int) { (i / 4) % 2 == 1 }

  /** The box of a cell. */
  function BoxOf(o: Octant): Box
  {
    BoxAround(o.center, o.extent)
  }

  /** The center of child `i`: the parent's center moved by half the parent's extent, in the
      direction each bit of `i` selects. */
  function ChildCenter(parent: Octant, i: int): Vec3
  {
    var q := Scale(parent.extent, 0.5);
    Add(Vec3(if XBit(i) then q.x else -q.x,
             if YBit(i) then q.y else -q.y,
             if ZBit(i) then q.z else -q.z),
        parent.center)
  }

  /** The fresh child cell `i` before it is subdivided itself. It inherits the parent's
      grid indices; its `id` is never assigned. */
  function MakeChild(parent: Octant, i: int): (c: Octant)
    ensures c.center == ChildCenter(parent, i) && c.extent == Scale(parent.extent, 0.5)
    ensures c.level == parent.level + 1 && c.index == i && c.children == []
    ensures c.status == Navigable && c.cost == 1.0
    ensures c.xIndex == parent.xIndex && c.yIndex == parent.yIndex && c.zIndex == parent.zIndex
  {
    Octant(UnassignedId, [], ChildCenter(parent, i), Scale(parent.extent, 0.5),
           parent.xIndex, parent.yIndex, parent.zIndex, parent.level + 1, i, 1.0, Navigable)
  }

  /** `c` has the geometry and bookkeeping of child `i` of `parent` (levels are kept apart:
      a reset cell restarts at level 0 wherever it sits). */
  predicate IsChildOf(c: Octant, parent: Octant, i: int)
  {
    && c.center == ChildCenter(parent, i)
    && c.extent == Scale(parent.extent, 0.5)
    && c.index == i
    && c.xIndex == parent.xIndex && c.yIndex == parent.yIndex && c.zIndex == parent.zIndex
  }

  /** The cell invariant: a cell has children exactly when it is `HasChildren`, then exactly
      eight in index order, each an octant of it, recursively. */
  predicate Shape(o: Octant)
    decreases o
  {
    if o.status == HasChildren then
      && |o.children| == 8
      && forall i :: 0 <= i < 8 ==> IsChildOf(o.children[i], o, i) && Shape(o.children[i])
    else
      o.children == []
  }

  /** No cell of the tree is deeper than `maxLevel`. */
  predicate LevelsAtMost(o: Octant, maxLevel: int)
    decreases o
  {
    && o.level <= maxLevel
    && forall i :: 0 <= i < |o.children| ==> LevelsAtMost(o.children[i], maxLevel)
  }

  /** `c` is `o` or one of its descendants. */
  predicate Within(c: Octant, o: Octant)
    decreases o
  {
    || c == o
    || exists k :: 0 <= k < |o.children| && Within(c, o.children[k])
  }

  lemma {:induction false} WithinShape(c: Octant, o: Octant)
    requires Within(c, o) && Shape(o)
    ensures Shape(c)
    decreases o
  {
    if c != o {
      var k :| 0 <= k < |o.children| && Within(c, o.children[k]);
      WithinShape(c, o.children[k]);
    }
  }

  lemma {:induction false} WithinLevels(c: Octant, o: Octant, maxLevel: int)
    requires Within(c, o) && LevelsAtMost(o, maxLevel)
    ensures c.level <= maxLevel
    decreases o
  {
    if c != o {
      var k :| 0 <= k < |o.children| && Within(c, o.children[k]);
      WithinLevels(c, o.children[k], maxLevel);
    }
  }

  /** A leaf of a well-shaped tree has no children. */
  lemma LeafIsChildless(c: Octant)
    requires Shape(c) && c.status != HasChildren
    ensures c.children == []
  {
  }

  /** The child index whose octant holds `p`, choosing the upper half on a tie. */
  function OctantIndexOf(o: Octant, p: Vec3): (i: int)
    ensures 0 <= i < 8
    ensures XBit(i) <==> p.x >= o.center.x
    ensures YBit(i) <==> p.y >= o.center.y
    ensures ZBit(i) <==> p.z >= o.center.z
  {
    (if p.x >= o.center.x then 1 else 0)
    + (if p.y >= o.center.y then 2 else 0)
    + (if p.z >= o.center.z then 4 else 0)
  }

  /** Partition, first half: the eight children cover the parent's closed box. */
  lemma ChildrenCoverParent(o: Octant, p: Vec3)
    requires Shape(o) && o.status == HasChildren
    requires Contains(BoxOf(o), p)
    ensures Contains(BoxOf(o.children[OctantIndexOf(o, p)]), p)
  {
    var i := OctantIndexOf(o, p);
    assert IsChildOf(o.children[i], o, i);
  }

  /** Partition, second half: each child's box lies inside the parent's box. */
  lemma ChildInsideParent(o: Octant, i: int, p: Vec3)
    requires Shape(o) && o.status == HasChildren && 0 <= i < 8
    requires Contains(BoxOf(o.children[i]), p)
    ensures Contains(BoxOf(o), p)
  {
    assert IsChildOf(o.children[i], o, i);
  }

  /** `p` lies strictly inside box `b` (not on a face). */
  predicate StrictlyInside(b: Box, p: Vec3)
  {
    && b.min.x < p.x < b.max.x
    && b.min.y < p.y < b.max.y
    && b.min.z < p.z < b.max.z
  }

  /** Partition, third part: the children's interiors do not overlap. */
  lemma ChildInteriorsDisjoint(o: Octant, i: int, j: int, p: Vec3)
    requires Shape(o) && o.status == HasChildren && 0 <= i < 8 && 0 <= j < 8
    requires StrictlyInside(BoxOf(o.children[i]), p) && StrictlyInside(BoxOf(o.children[j]), p)
    ensures i == j
  {
    assert IsChildOf(o.children[i], o, i);
    assert IsChildOf(o.children[j], o, j);
    assert XBit(i) <==> p.x > o.center.x;
    assert XBit(j) <==> p.x > o.center.x;
    assert YBit(i) <==> p.y > o.center.y;
    assert YBit(j) <==> p.y > o.center.y;
    assert ZBit(i) <==> p.z > o.center.z;
    assert ZBit(j) <==> p.z > o.center.z;
  }
}

=== FILE: pathfinding.dfy ===
/**
 * One pathfinding query (`FPathfindingTask`) and one step of its search (`CalculatePath`):
 * take the cheapest frontier cell, stop if the destination cell has been reached, otherwise
 * record every new passable neighbour in `closed` with the current cell as its predecessor
 * and queue it. The path is read back by following `closed` from the destination cell to the
 * origin cell.
 */
module Pathfinding {
  import opened Wrappers
  import opened Geometry
  import opened Octree
  import opened VoxelGrid
  import Neighbors
  import opened PriorityQueue

  /** `EPathfindingTaskStatus`. */
  datatype TaskStatus = NotStarted | InProgress | TimedOut | Successful | Failed

  /** The Euclidean distance `FVector::Dist`, supplied by the caller (square roots are not
      modelled). */
  type Distance = (Vec3, Vec3) -> real

  /** A query: who asked (an opaque actor handle), from where to where, the search state and
      the result. `closed` maps each reached cell to the cell it was reached from. */
  datatype PathfindingTask = PathfindingTask(
    actor: int,
    origin: Vec3,
    destination: Vec3,
    originOctant: Octant,
    destinationOctant: Octant,
    open: Queue<Octant>,
    closed: map<Octant, Octant>,
    path: seq<Vec3>,
    status: TaskStatus,
    timeTaken: real)

  /** The constructor `FPathfindingTask(actor, origin, destination, originOctant,
      destinationOctant)`: empty search state, `NotStarted`. */
  function NewTask(actor: int, origin: Vec3, destination: Vec3, originOctant: Octant,
                   destinationOctant: Octant): (t: PathfindingTask)
    ensures t.actor == actor && t.origin == origin && t.destination == destination
    ensures t.originOctant == originOctant && t.destinationOctant == destinationOctant
    ensures IsEmpty(t.open) && t.closed == map[] && t.path == []
    ensures t.status == NotStarted && t.timeTaken == 0.0
  {
    PathfindingTask(actor, origin, destination, originOctant, destinationOctant,
                    Empty(), map[], [], NotStarted, 0.0)
  }

  /** `operator==`: two tasks are the same query when actor, origin and destination agree,
      whatever their search state. */
  predicate SameQuery(a: PathfindingTask, b: PathfindingTask)
  {
    a.actor == b.actor && a.origin == b.origin && a.destination == b.destination
  }

  /** Equality ignores the located cells and the whole search state. */
  lemma SameQueryIgnoresSearchState(t: PathfindingTask, originOctant: Octant, destinationOctant: Octant,
                                    open: Queue<Octant>, closed: map<Octant, Octant>,
                                    path: seq<Vec3>, status: TaskStatus, timeTaken: real)
    ensures SameQuery(t, t.(originOctant := originOctant, destinationOctant := destinationOctant,
                            open := open, closed := closed, path := path, status := status,
                            timeTaken := timeTaken))
  {
  }

  // ----- One search step -----

  /** The queue priority of neighbour `n` reached from `curr`. */
  function StepCost(dist: Distance, t: PathfindingTask, curr: Octant, n: Octant): real
  {
    dist(n.center, t.destination) + dist(curr.center, n.center)
  }

  /** The body of the neighbour loop: skip a blocked or already reached cell, otherwise
      record `curr` as its predecessor and queue it at `StepCost`. */
  function Relax(t: PathfindingTask, curr: Octant, n: Octant, dist: Distance): (r: PathfindingTask)
    ensures r == t.(open := r.open, closed := r.closed)
    ensures n.status != Navigable || n in t.closed ==> r == t
    ensures n.status == Navigable && n !in t.closed ==>
      r.closed == t.closed[n := curr] && r.open.nodes == t.open.nodes + [Node(n, StepCost(dist, t, curr, n))]
  {
    if n.status != Navigable || n in t.closed then t
    else t.(closed := t.closed[n := curr], open := Push(t.open, n, StepCost(dist, t, curr, n)))
  }

  /** The neighbour loop over `ns`, in order. Afterwards every passable cell of `ns` has been
      reached, cells reached before keep their predecessor, and every newly reached cell is a
      passable cell of `ns` whose predecessor is `curr` and which was queued once, at its
      `StepCost` from `curr`. */
  function Expand(t: PathfindingTask, curr: Octant, ns: seq<Octant>, dist: Distance): (r: PathfindingTask)
    ensures r == t.(open := r.open, closed := r.closed)
    ensures forall k :: k in t.closed ==> k in r.closed && r.closed[k] == t.closed[k]
    ensures forall k :: k in r.closed && k !in t.closed ==> k in ns && k.status == Navigable && r.closed[k] == curr
    ensures forall n :: n in ns && n.status == Navigable ==> n in r.closed
    ensures |t.open.nodes| <= |r.open.nodes| && r.open.nodes[..|t.open.nodes|] == t.open.nodes
    ensures forall i :: |t.open.nodes| <= i < |r.open.nodes| ==>
      r.open.nodes[i].data in r.closed && r.open.nodes[i].data !in t.closed
    ensures forall i, j :: |t.open.nodes| <= i < j < |r.open.nodes| ==>
      r.open.nodes[i].data != r.open.nodes[j].data
    ensures forall i :: |t.open.nodes| <= i < |r.open.nodes| ==>
      r.open.nodes[i].priority == StepCost(dist, t, curr, r.open.nodes[i].data)
    ensures forall k :: k in r.closed && k !in t.closed ==>
      exists i :: |t.open.nodes| <= i < |r.open.nodes| && r.open.nodes[i].data == k
    decreases |ns|
  {
    if ns == [] then t
    else
      var t1 := Relax(t, curr, ns[0], dist);
      var r := Expand(t1, curr, ns[1..], dist);
      ExpandReaches(t, t1, r, curr, ns, dist);
      ExpandQueues(t, t1, r, curr, ns[0], dist);
      r
  }

  /** The inductive step of `Expand`'s clauses about `closed`: what `Relax` recorded for the
      first neighbour and what the rest of the loop recorded together give the whole loop's. */
  lemma ExpandReaches(t: PathfindingTask, t1: PathfindingTask, r: PathfindingTask, curr: Octant,
                      ns: seq<Octant>, dist: Distance)
    requires ns != [] && t1 == Relax(t, curr, ns[0], dist)
    requires forall k :: k in t1.closed ==> k in r.closed && r.closed[k] == t1.closed[k]
    requires forall k :: k in r.closed && k !in t1.closed ==>
      k in ns[1..] && k.status == Navigable && r.closed[k] == curr
    requires forall n :: n in ns[1..] && n.status == Navigable ==> n in r.closed
    ensures forall k :: k in t.closed ==> k in r.closed && r.closed[k] == t.closed[k]
    ensures forall k :: k in r.closed && k !in t.closed ==> k in ns && k.status == Navigable && r.closed[k] == curr
    ensures forall n :: n in ns && n.status == Navigable ==> n in r.closed
  {
    assert forall n :: n in ns ==> n == ns[0] || n in ns[1..];
  }

  /** The inductive step of `Expand`'s queueing clauses: the node `Relax` queued for the first
      neighbour, followed by the nodes the rest of the loop queued, keeps the old frontier in
      front, queues only newly reached cells, each once and at its `StepCost`, and between
      them covers every newly reached cell. */
  lemma ExpandQueues(t: PathfindingTask, t1: PathfindingTask, r: PathfindingTask, curr: Octant,
                     n: Octant, dist: Distance)
    requires t1 == Relax(t, curr, n, dist)
    requires forall k :: k in t1.closed ==> k in r.closed
    requires |t1.open.nodes| <= |r.open.nodes| && r.open.nodes[..|t1.open.nodes|] == t1.open.nodes
    requires forall i :: |t1.open.nodes| <= i < |r.open.nodes| ==>
      r.open.nodes[i].data in r.closed && r.open.nodes[i].data !in t1.closed
    requires forall i, j :: |t1.open.nodes| <= i < j < |r.open.nodes| ==>
      r.open.nodes[i].data != r.open.nodes[j].data
    requires forall i :: |t1.open.nodes| <= i < |r.open.nodes| ==>
      r.open.nodes[i].priority == StepCost(dist, t1, curr, r.open.nodes[i].data)
    requires forall k :: k in r.closed && k !in t1.closed ==>
      exists i :: |t1.open.nodes| <= i < |r.open.nodes| && r.open.nodes[i].data == k
    ensures |t.open.nodes| <= |r.open.nodes| && r.open.nodes[..|t.open.nodes|] == t.open.nodes
    ensures forall i :: |t.open.nodes| <= i < |r.open.nodes| ==>
      r.open.nodes[i].data in r.closed && r.open.nodes[i].data !in t.closed
    ensures forall i, j :: |t.open.nodes| <= i < j < |r.open.nodes| ==>
      r.open.nodes[i].data != r.open.nodes[j].data
    ensures forall i :: |t.open.nodes| <= i < |r.open.nodes| ==>
      r.open.nodes[i].priority == StepCost(dist, t, curr, r.open.nodes[i].data)
    ensures forall k :: k in r.closed && k !in t.closed ==>
      exists i :: |t.open.nodes| <= i < |r.open.nodes| && r.open.nodes[i].data == k
  {
    assert t1.open.nodes[..|t.open.nodes|] == t.open.nodes;
    assert t1.closed.Keys >= t.closed.Keys;
    assert forall i :: |t.open.nodes| <= i < |t1.open.nodes| ==>
      i == |t.open.nodes| && r.open.nodes[i] == t1.open.nodes[i] && t1.open.nodes[i].data in t1.closed;
    forall i | |t.open.nodes| <= i < |r.open.nodes|
      ensures r.open.nodes[i].priority == StepCost(dist, t, curr, r.open.nodes[i].data)
    {
      if i < |t1.open.nodes| {
        assert r.open.nodes[i] == t1.open.nodes[i];
      }
    }
    forall k | k in r.closed && k !in t.closed
      ensures exists i :: |t.open.nodes| <= i < |r.open.nodes| && r.open.nodes[i].data == k
    {
      if k in t1.closed {
        var i := |t.open.nodes|;
        assert r.open.nodes[i] == t1.open.nodes[i];
      }
    }
  }

  /** `CalculatePath`: one step of the search. With nothing queued the task fails; if the
      destination cell has been reached it succeeds (nothing is dequeued); otherwise the
      cheapest cell is dequeued and its neighbours are relaxed. */
  function CalculatePath(nav: Navmesh, t: PathfindingTask, dist: Distance): (r: PathfindingTask)
    requires nav.octantSize != 0.0
    ensures IsEmpty(t.open) ==> r == t.(status := Failed)
    ensures !IsEmpty(t.open) && t.destinationOctant in t.closed ==> r == t.(status := Successful)
    ensures !IsEmpty(t.open) && t.destinationOctant !in t.closed ==>
      var ns := Neighbors.GetNeighbors(nav, Top(t.open).value);
      && r == t.(open := r.open, closed := r.closed)
      && (forall k :: k in t.closed ==> k in r.closed && r.closed[k] == t.closed[k])
      && (forall k :: k in r.closed && k !in t.closed ==>
            k in ns && k.status == Navigable && Top(t.open) == Some(r.closed[k]))
      && (forall n :: n in ns && n.status == Navigable ==> n in r.closed)
      && |r.open.nodes| >= |t.open.nodes| - 1
      && r.open.nodes[..|t.open.nodes| - 1] == Pop(t.open).nodes
      && (forall i :: |t.open.nodes| - 1 <= i < |r.open.nodes| ==>
            r.open.nodes[i].priority == StepCost(dist, t, Top(t.open).value, r.open.nodes[i].data))
      && (forall k :: k in r.closed && k !in t.closed ==>
            exists i :: |t.open.nodes| - 1 <= i < |r.open.nodes| && r.open.nodes[i].data == k)
  {
    match Top(t.open)
    case None => t.(status := Failed)
    case Some(curr) =>
      if t.destinationOctant in t.closed then t.(status := Successful)
      else
        var popped := t.(open := Pop(t.open));
        var r := Expand(popped, curr, Neighbors.GetNeighbors(nav, curr), dist);
        PoppedExpand(t, popped, r, curr, Neighbors.GetNeighbors(nav, curr), dist);
        r
  }

  /** `Expand`'s clauses for the popped task, restated against the task before the pop: the
      popped frontier is one node shorter, and the queue priorities do not depend on it. */
  lemma PoppedExpand(t: PathfindingTask, popped: PathfindingTask, r: PathfindingTask, curr: Octant,
                     ns: seq<Octant>, dist: Distance)
    requires !IsEmpty(t.open) && popped == t.(open := Pop(t.open))
    requires r == popped.(open := r.open, closed := r.closed)
    requires forall k :: k in r.closed && k !in popped.closed ==>
      k in ns && k.status == Navigable && r.closed[k] == curr
    requires |popped.open.nodes| <= |r.open.nodes| && r.open.nodes[..|popped.open.nodes|] == popped.open.nodes
    requires forall i :: |popped.open.nodes| <= i < |r.open.nodes| ==>
      r.open.nodes[i].priority == StepCost(dist, popped, curr, r.open.nodes[i].data)
    requires forall k :: k in r.closed && k !in popped.closed ==>
      exists i :: |popped.open.nodes| <= i < |r.open.nodes| && r.open.nodes[i].data == k
    ensures r == t.(open := r.open, closed := r.closed)
    ensures forall k :: k in r.closed && k !in t.closed ==>
      k in ns && k.status == Navigable && r.closed[k] == curr
    ensures |r.open.nodes| >= |t.open.nodes| - 1 && r.open.nodes[..|t.open.nodes| - 1] == Pop(t.open).nodes
    ensures forall i :: |t.open.nodes| - 1 <= i < |r.open.nodes| ==>
      r.open.nodes[i].priority == StepCost(dist, t, curr, r.open.nodes[i].data)
    ensures forall k :: k in r.closed && k !in t.closed ==>
      exists i :: |t.open.nodes| - 1 <= i < |r.open.nodes| && r.open.nodes[i].data == k
  {
    assert |popped.open.nodes| == |t.open.nodes| - 1;
  }

  // ----- The predecessor map -----

  /** Following predecessors from `c` reaches `origin` within `fuel` steps. */
  predicate Reaches(closed: map<Octant, Octant>, c: Octant, origin: Octant, fuel: nat)
    decreases fuel
  {
    c == origin || (fuel > 0 && c in closed && Reaches(closed, closed[c], origin, fuel - 1))
  }

  /** Every reached cell leads back to the origin cell. */
  ghost predicate Rooted(closed: map<Octant, Octant>, origin: Octant)
  {
    forall k :: k in closed ==> exists fuel: nat :: Reaches(closed, k, origin, fuel)
  }

  /** What the search keeps true: reached cells are passable, lead back to the origin, and
      everything queued is the origin cell or a reached cell. */
  ghost predicate SearchInvariant(t: PathfindingTask)
  {
    && (forall k :: k in t.closed ==> k.status == Navigable)
    && Rooted(t.closed, t.originOctant)
    && (forall i :: 0 <= i < |t.open.nodes| ==>
          t.open.nodes[i].data == t.originOctant || t.open.nodes[i].data in t.closed)
  }

  /** Recording a new cell does not disturb any existing route to the origin: routes only
      pass through reached cells and stop at the origin. */
  lemma {:induction false} ReachesExtend(closed: map<Octant, Octant>, c: Octant, origin: Octant,
                                         fuel: nat, n: Octant, p: Octant)
    requires Reaches(closed, c, origin, fuel) && n !in closed
    ensures Reaches(closed[n := p], c, origin, fuel)
    decreases fuel
  {
    if c != origin {
      ReachesExtend(closed, closed[c], origin, fuel - 1, n, p);
    }
  }

  lemma RelaxKeepsInvariant(t: PathfindingTask, curr: Octant, n: Octant, dist: Distance)
    requires SearchInvariant(t)
    requires curr == t.originOctant || curr in t.closed
    ensures SearchInvariant(Relax(t, curr, n, dist))
  {
    if n.status == Navigable && n !in t.closed {
      var m := t.closed[n := curr];
      var o := t.originOctant;
      forall k | k in m
        ensures exists fuel: nat :: Reaches(m, k, o, fuel)
      {
        if k == n {
          if curr == o {
            assert Reaches(m, curr, o, 0);
            assert Reaches(m, k, o, 1);
          } else {
            var f: nat :| Reaches(t.closed, curr, o, f);
            ReachesExtend(t.closed, curr, o, f, n, curr);
            assert Reaches(m, k, o, f + 1);
          }
        } else {
          var f: nat :| Reaches(t.closed, k, o, f);
          ReachesExtend(t.closed, k, o, f, n, curr);
        }
      }
    }
  }

  lemma {:induction false} ExpandKeepsInvariant(t: PathfindingTask, curr: Octant, ns: seq<Octant>, dist: Distance)
    requires SearchInvariant(t)
    requires curr == t.originOctant || curr in t.closed
    ensures SearchInvariant(Expand(t, curr, ns, dist))
    decreases |ns|
  {
    if ns != [] {
      var t1 := Relax(t, curr, ns[0], dist);
      RelaxKeepsInvariant(t, curr, ns[0], dist);
      ExpandKeepsInvariant(t1, curr, ns[1..], dist);
    }
  }

  /** Every queued cell of a popped queue was queued before. */
  lemma PopKeepsMembers(q: Queue<Octant>, x: Octant)
    requires exists i :: 0 <= i < |Pop(q).nodes| && Pop(q).nodes[i].data == x
    ensures exists i :: 0 <= i < |q.nodes| && q.nodes[i].data == x
  {
    var i :| 0 <= i < |Pop(q).nodes| && Pop(q).nodes[i].data == x;
    var nd := Pop(q).nodes[i];
    assert nd in multiset(Pop(q).nodes);
    if !IsEmpty(q) {
      var n :| n in multiset(q.nodes) && IsLeast(q.nodes, n) && Top(q) == Some(n.data)
               && multiset(Pop(q).nodes) + multiset{n} == multiset(q.nodes);
      assert nd in multiset(q.nodes);
    }
    assert nd in q.nodes;
  }

  /** A search step keeps the invariant. */
  lemma CalculatePathKeepsInvariant(nav: Navmesh, t: PathfindingTask, dist: Distance)
    requires nav.octantSize != 0.0
    requires SearchInvariant(t)
    ensures SearchInvariant(CalculatePath(nav, t, dist))
  {
    match Top(t.open)
    case None =>
    case Some(curr) =>
      if t.destinationOctant !in t.closed {
        var t0 := t.(open := Pop(t.open));
        forall i | 0 <= i < |t0.open.nodes|
          ensures t0.open.nodes[i].data == t0.originOctant || t0.open.nodes[i].data in t0.closed
        {
          PopKeepsMembers(t.open, t0.open.nodes[i].data);
        }
        ExpandKeepsInvariant(t0, curr, Neighbors.GetNeighbors(nav, curr), dist);
      }
  }

  /** The search state a freshly scheduled task starts from: only the origin cell queued. */
  lemma StartKeepsInvariant(t: PathfindingTask, cost: real)
    requires t.closed == map[] && IsEmpty(t.open)
    ensures SearchInvariant(t.(open := Push(t.open, t.originOctant, cost)))
  {
  }

  /** Success needs the destination cell among the reached cells, so a blocked destination
      cell is never reported found, and a found one always leads back to the origin cell. */
  lemma SuccessNeedsReachedDestination(nav: Navmesh, t: PathfindingTask, dist: Distance)
    requires nav.octantSize != 0.0
    requires SearchInvariant(t) && t.status != Successful
    ensures var r := CalculatePath(nav, t, dist);
      r.status == Successful ==>
        && t.destinationOctant in t.closed && t.destinationOctant.status == Navigable
        && exists fuel: nat :: Reaches(r.closed, r.destinationOctant, r.originOctant, fuel)
  {
  }

  // ----- Reading the path back -----

  /** `chain` is the predecessor walk from `dest` to `origin`: it starts at `dest`, each cell
      before the last is a reached cell other than the origin whose predecessor comes next,
      and it ends at `origin`. */
  predicate IsChain(closed: map<Octant, Octant>, chain: seq<Octant>, dest: Octant, origin: Octant)
  {
    && |chain| > 0 && chain[0] == dest && chain[|chain| - 1] == origin
    && forall i :: 0 <= i < |chain| - 1 ==>
         chain[i] != origin && chain[i] in closed && closed[chain[i]] == chain[i + 1]
  }

  /** The walk is determined by its end points. */
  lemma {:induction false} ChainUnique(closed: map<Octant, Octant>, a: seq<Octant>, b: seq<Octant>,
                                       dest: Octant, origin: Octant)
    requires IsChain(closed, a, dest, origin) && IsChain(closed, b, dest, origin)
    ensures a == b
    decreases |a|
  {
    if |a| > 1 && |b| > 1 {
      assert a[1] == b[1];
      assert IsChain(closed, a[1..], a[1], origin);
      assert IsChain(closed, b[1..], a[1], origin);
      ChainUnique(closed, a[1..], b[1..], a[1], origin);
      assert a == [a[0]] + a[1..];
      assert b == [b[0]] + b[1..];
    }
  }

  /** A walk of `n + 1` cells means the destination leads back to the origin in `n` steps;
      `Reconstruct` builds the walk in the other direction. */
  lemma {:induction false} ChainReaches(closed: map<Octant, Octant>, chain: seq<Octant>,
                                           dest: Octant, origin: Octant)
    requires IsChain(closed, chain, dest, origin)
    ensures Reaches(closed, dest, origin, |chain| - 1)
    decreases |chain|
  {
    if |chain| > 1 {
      assert IsChain(closed, chain[1..], chain[1], origin);
      ChainReaches(closed, chain[1..], chain[1], origin);
    }
  }

  /** The reconstruction loop of `TickPathfindingUpdates`: walk the predecessors from the
      destination cell until the origin cell, collecting the center of every cell stepped
      to. Cells are compared as values; the source compares their `id`s. */
  method Reconstruct(closed: map<Octant, Octant>, dest: Octant, origin: Octant)
    returns (chain: seq<Octant>, centers: seq<Vec3>)
    requires exists fuel: nat :: Reaches(closed, dest, origin, fuel)
    ensures IsChain(closed, chain, dest, origin)
    ensures |centers| == |chain| - 1
    ensures forall i :: 0 <= i < |centers| ==> centers[i] == chain[i + 1].center
  {
    ghost var fuel: nat :| Reaches(closed, dest, origin, fuel);
    var prev := dest;
    chain := [dest];
    centers := [];
    while prev != origin
      invariant Reaches(closed, prev, origin, fuel)
      invariant |chain| > 0 && chain[0] == dest && chain[|chain| - 1] == prev
      invariant forall i :: 0 <= i < |chain| - 1 ==>
        chain[i] != origin && chain[i] in closed && closed[chain[i]] == chain[i + 1]
      invariant |centers| == |chain| - 1
      invariant forall i :: 0 <= i < |centers| ==> centers[i] == chain[i + 1].center
      decreases fuel
    {
      var next := closed[prev];
      centers := centers + [next.center];
      chain := chain + [next];
      prev := next;
      fuel := fuel - 1;
    }
  }

  /** `Algo::Reverse`. */
  function Reverse<T>(s: seq<T>): (r: seq<T>)
    ensures |r| == |s|
    ensures forall i :: 0 <= i < |s| ==> r[i] == s[|s| - 1 - i]
  {
    if s == [] then [] else Reverse(s[1..]) + [s[0]]
  }

  lemma {:induction false} ReverseReverse<T>(s: seq<T>)
    ensures Reverse(Reverse(s)) == s
  {
    var r := Reverse(Reverse(s));
    assert forall i :: 0 <= i < |s| ==> r[i] == s[i];
  }

  /** The path a successful task ends with, read front to back: from the origin cell's center
      along the walk to the center of the destination cell's predecessor. Neither the
      destination cell's center nor the destination point is on it, and it is empty when the
      destination cell is the origin cell. */
  lemma PathShape(closed: map<Octant, Octant>, chain: seq<Octant>, centers: seq<Vec3>,
                  dest: Octant, origin: Octant)
    requires IsChain(closed, chain, dest, origin)
    requires |centers| == |chain| - 1
    requires forall i :: 0 <= i < |centers| ==> centers[i] == chain[i + 1].center
    ensures var path := Reverse(centers);
      && (dest == origin <==> path == [])
      && (dest != origin ==> path[0] == origin.center && path[|path| - 1] == closed[dest].center)
      && forall i :: 0 <= i < |path| ==> path[i] == chain[|chain| - 1 - i].center
  {
  }
}

=== FILE: pqueue.dfy ===
/**
 * `PrioritiyQueue<T>`: a min-priority queue of `(data, priority)` nodes. The source keeps the
 * nodes as a binary heap ordered by `priority`; here they are a plain sequence in insertion
 * order, and `Top`/`Pop` take the first node of least priority, which is one of the nodes a
 * heap may return.
 */
module PriorityQueue {
  import opened Wrappers

  datatype Node<T> = Node(data: T, priority: real)

  datatype Queue<T> = Queue(nodes: seq<Node<T>>)

  /** `IsEmpty`: no nodes. */
  predicate IsEmpty<T>(q: Queue<T>)
  {
    |q.nodes| == 0
  }

  /** A freshly constructed queue. */
  function Empty<T>(): (q: Queue<T>)
    ensures IsEmpty(q)
  {
    Queue([])
  }

  /** `Push`: the queue gains exactly the node `(data, priority)`. */
  function Push<T(==)>(q: Queue<T>, data: T, priority: real): (r: Queue<T>)
    ensures multiset(r.nodes) == multiset(q.nodes) + multiset{Node(data, priority)}
    ensures !IsEmpty(r)
  {
    Queue(q.nodes + [Node(data, priority)])
  }

  /** `n` has the least priority among `nodes`. */
  predicate IsLeast<T>(nodes: seq<Node<T>>, n: Node<T>)
  {
    forall j :: 0 <= j < |nodes| ==> n.priority <= nodes[j].priority
  }

  /** The position of the first node of least priority. */
  function MinIndex<T>(nodes: seq<Node<T>>): (i: nat)
    requires |nodes| > 0
    ensures i < |nodes|
    ensures IsLeast(nodes, nodes[i])
    ensures forall j :: 0 <= j < i ==> nodes[j].priority > nodes[i].priority
  {
    if |nodes| == 1 then 0
    else
      var m := MinIndex(nodes[..|nodes| - 1]);
      if nodes[|nodes| - 1].priority < nodes[m].priority then |nodes| - 1 else m
  }

  /** `Top`: the data of a least-priority node, or nothing (the source's `NULL`) when empty. */
  function Top<T>(q: Queue<T>): (r: Option<T>)
    ensures r.None? <==> IsEmpty(q)
    ensures r.Some? ==> exists i :: 0 <= i < |q.nodes| && q.nodes[i].data == r.value && IsLeast(q.nodes, q.nodes[i])
  {
    if IsEmpty(q) then None else Some(q.nodes[MinIndex(q.nodes)].data)
  }

  /** `Pop`: nothing on an empty queue; otherwise exactly one least-priority node leaves,
      and it is the node whose data `Top` returns. */
  function Pop<T(==)>(q: Queue<T>): (r: Queue<T>)
    ensures IsEmpty(q) ==> r == q
    ensures !IsEmpty(q) ==> |r.nodes| == |q.nodes| - 1
    ensures !IsEmpty(q) ==> exists n :: n in multiset(q.nodes) && IsLeast(q.nodes, n) && Top(q) == Some(n.data)
                                      && multiset(r.nodes) + multiset{n} == multiset(q.nodes)
  {
    if IsEmpty(q) then q
    else
      var i := MinIndex(q.nodes);
      var r := Queue(q.nodes[..i] + q.nodes[i + 1..]);
      assert q.nodes == q.nodes[..i] + [q.nodes[i]] + q.nodes[i + 1..];
      assert multiset(r.nodes) + multiset{q.nodes[i]} == multiset(q.nodes);
      r
  }

  /** A node pushed with a priority below every queued one is the next `Top`. */
  lemma PushLeastIsTop<T>(q: Queue<T>, data: T, priority: real)
    requires forall j :: 0 <= j < |q.nodes| ==> priority < q.nodes[j].priority
    ensures Top(Push(q, data, priority)) == Some(data)
  {
    var ns := Push(q, data, priority).nodes;
    assert ns[|ns| - 1] == Node(data, priority);
  }

  /** Pushing a node whose priority is not below the current least one leaves `Top` alone:
      ties go to the node queued first. */
  lemma PushKeepsTop<T>(q: Queue<T>, data: T, priority: real)
    requires !IsEmpty(q)
    requires priority >= q.nodes[MinIndex(q.nodes)].priority
    ensures Top(Push(q, data, priority)) == Top(q)
  {
    var ns := Push(q, data, priority).nodes;
    assert ns[..|ns| - 1] == q.nodes;
  }
}

=== FILE: scheduler.dfy ===
/**
 * The task list of the navmesh volume: `SchedulePathfindingTask` adds a query,
 * `TickPathfindingUpdates` advances up to a budget of queries by one search step each and
 * retires the finished ones, and the worker thread runs the dynamic rebuild and then the
 * pathfinding tick once per iteration.
 */
module Scheduler {
  import opened Wrappers
  import opened Geometry
  import opened Octree
  import opened Collision
  import opened VoxelGrid
  import opened Location
  import opened PriorityQueue
  import opened Pathfinding

  /** `SchedulePathfindingTask`: locate the destination, then the actor's position; if either
      lies outside the grid nothing is scheduled. Otherwise a new task with only the origin
      cell queued (at that cell's cost) is appended. */
  function SchedulePathfindingTask(nav: Navmesh, tasks: seq<PathfindingTask>, actor: int,
                                   actorLocation: Vec3, destination: Vec3): (r: (bool, seq<PathfindingTask>))
    requires nav.octantSize != 0.0
    ensures r.0 <==> FindOctantAtLocation(nav, destination).Some? && FindOctantAtLocation(nav, actorLocation).Some?
    ensures !r.0 ==> r.1 == tasks
    ensures r.0 ==> |r.1| == |tasks| + 1 && r.1[..|tasks|] == tasks
    ensures r.0 ==> var t := r.1[|tasks|];
      && t.actor == actor && t.origin == actorLocation && t.destination == destination
      && Some(t.originOctant) == FindOctantAtLocation(nav, actorLocation)
      && Some(t.destinationOctant) == FindOctantAtLocation(nav, destination)
      && t.open.nodes == [Node(t.originOctant, t.originOctant.cost)]
      && t.closed == map[] && t.timeTaken == 0.0
      && Active(t)
  {
    match FindOctantAtLocation(nav, destination)
    case None => (false, tasks)
    case Some(d) =>
      match FindOctantAtLocation(nav, actorLocation)
      case None => (false, tasks)
      case Some(o) =>
        var t0 := NewTask(actor, actorLocation, destination, o, d);
        StartKeepsInvariant(t0, o.cost);
        var t := t0.(open := Push(t0.open, o, o.cost));
        (true, tasks + [t])
  }

  /** A task in the active list: never started as far as its status goes (the source never
      sets `InProgress`), no path yet, and its search keeps the search invariant. */
  ghost predicate Active(t: PathfindingTask)
  {
    t.status == NotStarted && t.path == [] && SearchInvariant(t)
  }

  /** Whether a processed task leaves the list. */
  datatype Outcome = Completed | Continued

  /** What one iteration of the tick loop does to task `t`: a task over the time limit
      (strictly) times out; otherwise it takes one search step, and a failed task completes, a
      successful one completes with its path read back and reversed, and any other goes on
      with its time advanced by `deltaTime`. */
  ghost predicate Processed(nav: Navmesh, t: PathfindingTask, deltaTime: real, timeout: real, dist: Distance,
                            r: PathfindingTask, outcome: Outcome)
    requires nav.octantSize != 0.0
  {
    if t.timeTaken > timeout then
      r == t.(status := TimedOut) && outcome == Completed
    else
      Settled(CalculatePath(nav, t, dist), deltaTime, r, outcome)
  }

  /** What happens to a task after its search step `c`. */
  ghost predicate Settled(c: PathfindingTask, deltaTime: real, r: PathfindingTask, outcome: Outcome)
  {
    if c.status == Failed then
      r == c && outcome == Completed
    else if c.status == Successful then
      ReadBack(c, r) && outcome == Completed
    else
      r == c.(timeTaken := c.timeTaken + deltaTime) && outcome == Continued
  }

  /** `r` is `c` with the path read back from `c`'s predecessor map and reversed. */
  ghost predicate ReadBack(c: PathfindingTask, r: PathfindingTask)
  {
    exists chain: seq<Octant>, centers: seq<Vec3> ::
      && IsChain(c.closed, chain, c.destinationOctant, c.originOctant)
      && |centers| == |chain| - 1
      && (forall i :: 0 <= i < |centers| ==> centers[i] == chain[i + 1].center)
      && r == c.(path := Reverse(c.path + centers))
  }

  /** The success branch of the tick loop: read the path back and reverse it. */
  method CompleteSuccessful(c: PathfindingTask) returns (r: PathfindingTask)
    requires exists fuel: nat :: Reaches(c.closed, c.destinationOctant, c.originOctant, fuel)
    ensures ReadBack(c, r)
  {
    var chain, centers := Reconstruct(c.closed, c.destinationOctant, c.originOctant);
    r := c.(path := Reverse(c.path + centers));
  }

  /** One iteration of the loop in `TickPathfindingUpdates`; a task that goes on is still
      active. */
  method ProcessTask(nav: Navmesh, t: PathfindingTask, deltaTime: real, timeout: real, dist: Distance)
    returns (r: PathfindingTask, outcome: Outcome)
    requires nav.octantSize != 0.0
    requires Active(t)
    ensures Processed(nav, t, deltaTime, timeout, dist, r, outcome)
    ensures outcome == Continued ==> Active(r)
  {
    if t.timeTaken > timeout {
      return t.(status := TimedOut), Completed;
    }
    var c := CalculatePath(nav, t, dist);
    SuccessNeedsReachedDestination(nav, t, dist);
    CalculatePathKeepsInvariant(nav, t, dist);
    assert c.path == [] && (c.status == t.status || c.status in {Failed, Successful});
    r, outcome := Settle(c, deltaTime);
    if outcome == Continued {
      SearchInvariantIgnoresTime(c, c.timeTaken + deltaTime);
    }
  }

  /** The branches after the search step: a failed task completes as it is, a successful one
      completes with its path read back, any other goes on with its time advanced. */
  method Settle(c: PathfindingTask, deltaTime: real) returns (r: PathfindingTask, outcome: Outcome)
    requires c.status == Successful ==> exists fuel: nat :: Reaches(c.closed, c.destinationOctant, c.originOctant, fuel)
    ensures Settled(c, deltaTime, r, outcome)
    ensures outcome == Continued ==> c.status != Failed && c.status != Successful
  {
    if c.status == Failed {
      return c, Completed;
    }
    if c.status == Successful {
      r := CompleteSuccessful(c);
      return r, Completed;
    }
    return c.(timeTaken := c.timeTaken + deltaTime), Continued;
  }

  lemma SearchInvariantIgnoresTime(c: PathfindingTask, time: real)
    requires SearchInvariant(c)
    ensures SearchInvariant(c.(timeTaken := time))
  {
    assert c.(timeTaken := time).closed == c.closed;
  }

  /** `TArray::RemoveAtSwap`: the last element takes the removed one's place. */
  function RemoveAtSwap<T>(s: seq<T>, i: nat): (r: seq<T>)
    requires i < |s|
    ensures |r| == |s| - 1
    ensures forall j :: 0 <= j < |r| && j != i ==> r[j] == s[j]
    ensures i < |r| ==> r[i] == s[|s| - 1]
  {
    s[i := s[|s| - 1]][..|s| - 1]
  }

  /** Exactly one copy of the removed element leaves. */
  lemma RemoveAtSwapIsRemoval<T>(s: seq<T>, i: nat)
    requires i < |s|
    ensures multiset(RemoveAtSwap(s, i)) + multiset{s[i]} == multiset(s)
  {
    var last := |s| - 1;
    if i < last {
      var r := RemoveAtSwap(s, i);
      assert s == s[..i] + [s[i]] + s[i + 1..last] + [s[last]];
      assert r == s[..i] + [s[last]] + s[i + 1..last];
    } else {
      assert s == RemoveAtSwap(s, i) + [s[i]];
    }
  }

  /** Bookkeeping of the tick loop when the task at `i` completes: it leaves the list and
      the unvisited suffix shrinks by it. */
  lemma RetireStep<T>(cur: seq<T>, tasks: seq<T>, i: nat, kept: seq<T>)
    requires i < |cur| && i < |tasks| && cur[i] == tasks[i]
    requires multiset(cur) == multiset(kept) + multiset(tasks[i..])
    ensures multiset(RemoveAtSwap(cur, i)) == multiset(kept) + multiset(tasks[i + 1..])
  {
    RemoveAtSwapIsRemoval(cur, i);
    assert tasks[i..] == [tasks[i]] + tasks[i + 1..];
    var m := multiset(RemoveAtSwap(cur, i));
    var a := multiset(kept) + multiset(tasks[i + 1..]);
    assert multiset(tasks[i..]) == multiset{tasks[i]} + multiset(tasks[i + 1..]);
    assert m + multiset{tasks[i]} == a + multiset{tasks[i]};
    MultisetCancel(m, a, tasks[i]);
  }

  lemma MultisetCancel<T>(m: multiset<T>, a: multiset<T>, x: T)
    requires m + multiset{x} == a + multiset{x}
    ensures m == a
  {
    forall y
      ensures m[y] == a[y]
    {
      assert (m + multiset{x})[y] == (a + multiset{x})[y];
    }
  }

  /** Bookkeeping of the tick loop when the task at `i` goes on as `r`. */
  lemma ContinueStep<T>(cur: seq<T>, tasks: seq<T>, i: nat, kept: seq<T>, r: T)
    requires i < |cur| && i < |tasks| && cur[i] == tasks[i]
    requires multiset(cur) == multiset(kept) + multiset(tasks[i..])
    ensures multiset(cur[i := r]) == multiset(kept + [r]) + multiset(tasks[i + 1..])
  {
    assert tasks[i..] == [tasks[i]] + tasks[i + 1..];
    assert cur[i := r] == cur[..i] + [r] + cur[i + 1..];
    assert cur == cur[..i] + [cur[i]] + cur[i + 1..];
  }

  /** The tasks among `ts` whose outcome in `os` is `which`, in order. */
  function Kept<T>(ts: seq<T>, os: seq<Outcome>, which: Outcome): (r: seq<T>)
    requires |ts| == |os|
    ensures |r| <= |ts|
    ensures forall t :: t in r ==> exists j :: 0 <= j < |ts| && ts[j] == t && os[j] == which
  {
    if ts == [] then []
    else Kept(ts[..|ts| - 1], os[..|os| - 1], which) + (if os[|os| - 1] == which then [ts[|ts| - 1]] else [])
  }

  lemma KeptAppend<T>(ts: seq<T>, os: seq<Outcome>, which: Outcome, t: T, o: Outcome)
    requires |ts| == |os|
    ensures Kept(ts + [t], os + [o], which) == Kept(ts, os, which) + (if o == which then [t] else [])
  {
    assert (ts + [t])[..|ts|] == ts;
    assert (os + [o])[..|os|] == os;
  }

  /** The list bookkeeping of the tick loop after visiting positions `0 .. i-1`: the positions
      not yet visited still hold the original tasks, the tasks that went on (`kept`) and the
      unvisited ones make up the list, and the completed ones are in `finished`. */
  ghost predicate Bookkept<T>(tasks: seq<T>, i: nat, cur: seq<T>, finished: seq<T>, kept: seq<T>,
                              advanced: seq<T>, outcomes: seq<Outcome>)
  {
    && i <= |tasks| && |advanced| == i && |outcomes| == i
    && |cur| + |finished| == |tasks|
    && (forall j :: i <= j < |cur| ==> cur[j] == tasks[j])
    && finished == Kept(advanced, outcomes, Completed)
    && kept == Kept(advanced, outcomes, Continued)
    && multiset(cur) == multiset(kept) + multiset(tasks[i..])
  }

  /** One visit keeps the bookkeeping: a completed task is swap-removed, a continued one is
      written back in place. */
  lemma VisitStep<T>(tasks: seq<T>, i: nat, cur: seq<T>, finished: seq<T>, kept: seq<T>,
                     advanced: seq<T>, outcomes: seq<Outcome>, r: T, out: Outcome)
    requires Bookkept(tasks, i, cur, finished, kept, advanced, outcomes) && i < |cur|
    ensures i < |tasks| && cur[i] == tasks[i]
    ensures out == Completed ==>
      Bookkept(tasks, i + 1, RemoveAtSwap(cur, i), finished + [r], kept, advanced + [r], outcomes + [out])
    ensures out == Continued ==>
      Bookkept(tasks, i + 1, cur[i := r], finished, kept + [r], advanced + [r], outcomes + [out])
  {
    KeptAppend(advanced, outcomes, Completed, r, out);
    KeptAppend(advanced, outcomes, Continued, r, out);
    if out == Completed {
      RetireStep(cur, tasks, i, kept);
    } else {
      ContinueStep(cur, tasks, i, kept, r);
    }
  }

  /** Every task of the list is active. */
  ghost predicate AllActive(ts: seq<PathfindingTask>)
  {
    forall t :: t in ts ==> Active(t)
  }

  /** `P` holds of the first `|ys|` elements of `xs` and the matching elements of `ys`
      and `zs`. */
  ghost predicate Pointwise<A, B, C>(P: (A, B, C) -> bool, xs: seq<A>, ys: seq<B>, zs: seq<C>)
  {
    && |ys| == |zs| <= |xs|
    && forall j :: 0 <= j < |ys| ==> P(xs[j], ys[j], zs[j])
  }

  lemma PointwiseExtend<A, B, C>(P: (A, B, C) -> bool, xs: seq<A>, ys: seq<B>, zs: seq<C>, y: B, z: C)
    requires Pointwise(P, xs, ys, zs) && |ys| < |xs| && P(xs[|ys|], y, z)
    ensures Pointwise(P, xs, ys + [y], zs + [z])
  {
    assert (ys + [y])[..|ys|] == ys && (zs + [z])[..|ys|] == zs;
  }

  /** The relation `Processed` with the tick's parameters fixed. */
  ghost function ProcessedWith(nav: Navmesh, deltaTime: real, timeout: real, dist: Distance)
    : (PathfindingTask, PathfindingTask, Outcome) -> bool
  {
    (t, r, o) => nav.octantSize != 0.0 && Processed(nav, t, deltaTime, timeout, dist, r, o)
  }

  /** The first `|advanced|` tasks were processed into `advanced` with `outcomes`. */
  ghost predicate AllProcessed(nav: Navmesh, tasks: seq<PathfindingTask>, deltaTime: real, timeout: real,
                               dist: Distance, advanced: seq<PathfindingTask>, outcomes: seq<Outcome>)
  {
    Pointwise(ProcessedWith(nav, deltaTime, timeout, dist), tasks, advanced, outcomes)
  }

  /** The processed prefix read back at position `j`. */
  lemma AllProcessedAt(nav: Navmesh, tasks: seq<PathfindingTask>, deltaTime: real, timeout: real,
                       dist: Distance, advanced: seq<PathfindingTask>, outcomes: seq<Outcome>, j: int)
    requires nav.octantSize != 0.0
    requires AllProcessed(nav, tasks, deltaTime, timeout, dist, advanced, outcomes)
    requires 0 <= j < |advanced|
    ensures j < |tasks| && j < |outcomes|
    ensures Processed(nav, tasks[j], deltaTime, timeout, dist, advanced[j], outcomes[j])
  {
    assert ProcessedWith(nav, deltaTime, timeout, dist)(tasks[j], advanced[j], outcomes[j]);
  }

  lemma RetireKeepsActive(cur: seq<PathfindingTask>, i: nat)
    requires i < |cur| && AllActive(cur)
    ensures AllActive(RemoveAtSwap(cur, i))
  {
    RemoveAtSwapIsRemoval(cur, i);
    forall t | t in RemoveAtSwap(cur, i)
      ensures Active(t)
    {
      assert t in multiset(RemoveAtSwap(cur, i));
      assert t in multiset(cur);
    }
  }

  lemma ContinueKeepsActive(cur: seq<PathfindingTask>, i: nat, r: PathfindingTask)
    requires i < |cur| && AllActive(cur) && Active(r)
    ensures AllActive(cur[i := r])
  {
    forall t | t in cur[i := r]
      ensures Active(t)
    {
      var j :| 0 <= j < |cur| && cur[i := r][j] == t;
      if j != i {
        assert t == cur[j];
      }
    }
  }

  /** The body of the tick loop for list position `i`. */
  method VisitTask(nav: Navmesh, tasks: seq<PathfindingTask>, deltaTime: real, timeout: real, dist: Distance,
                   i: nat, cur: seq<PathfindingTask>, finished: seq<PathfindingTask>, ghost kept: seq<PathfindingTask>,
                   advanced: seq<PathfindingTask>, outcomes: seq<Outcome>)
    returns (cur': seq<PathfindingTask>, finished': seq<PathfindingTask>, ghost kept': seq<PathfindingTask>,
             advanced': seq<PathfindingTask>, outcomes': seq<Outcome>)
    requires nav.octantSize != 0.0
    requires Bookkept(tasks, i, cur, finished, kept, advanced, outcomes) && i < |cur|
    requires AllProcessed(nav, tasks, deltaTime, timeout, dist, advanced, outcomes) && AllActive(cur)
    ensures Bookkept(tasks, i + 1, cur', finished', kept', advanced', outcomes')
    ensures AllProcessed(nav, tasks, deltaTime, timeout, dist, advanced', outcomes') && AllActive(cur')
  {
    var t := cur[i];
    VisitStep(tasks, i, cur, finished, kept, advanced, outcomes, t, Completed);
    assert t in cur;
    var r, out := ProcessTask(nav, t, deltaTime, timeout, dist);
    PointwiseExtend(ProcessedWith(nav, deltaTime, timeout, dist), tasks, advanced, outcomes, r, out);
    VisitStep(tasks, i, cur, finished, kept, advanced, outcomes, r, out);
    if out == Completed {
      RetireKeepsActive(cur, i);
      cur', finished', kept' := RemoveAtSwap(cur, i), finished + [r], kept;
    } else {
      ContinueKeepsActive(cur, i, r);
      cur', finished', kept' := cur[i := r], finished, kept + [r];
    }
    advanced', outcomes' := advanced + [r], outcomes + [out];
  }

  /** `TickPathfindingUpdates`: visit list positions `0, 1, ...` up to the budget
      `min(maxNumOfTasks, number of tasks)`. A completed task is swap-removed, so the task
      moved into its place waits for the next tick. The source keeps its budget when the list
      shrinks and would then index past the end; the loop here also stops at the end of the
      list. The tasks visited are exactly the first `processed` tasks of the input; the tasks
      left are the ones that went on plus the ones not visited, and the ones that completed
      come out in `finished`, in order. */
  method TickPathfindingUpdates(nav: Navmesh, tasks: seq<PathfindingTask>, deltaTime: real,
                                maxNumOfTasks: int, timeout: real, dist: Distance)
    returns (remaining: seq<PathfindingTask>, finished: seq<PathfindingTask>,
             processed: nat, advanced: seq<PathfindingTask>, outcomes: seq<Outcome>)
    requires nav.octantSize != 0.0
    requires AllActive(tasks)
    ensures processed <= |tasks| && processed <= Count(maxNumOfTasks)
    ensures processed == Count(maxNumOfTasks) || processed == |tasks| || processed >= |remaining|
    ensures |advanced| == processed && AllProcessed(nav, tasks, deltaTime, timeout, dist, advanced, outcomes)
    ensures finished == Kept(advanced, outcomes, Completed)
    ensures multiset(remaining) == multiset(Kept(advanced, outcomes, Continued)) + multiset(tasks[processed..])
    ensures |remaining| + |finished| == |tasks|
    ensures AllActive(remaining)
  {
    var bound := if maxNumOfTasks > |tasks| then |tasks| else Count(maxNumOfTasks);
    var cur := tasks;
    var i := 0;
    finished, advanced, outcomes := [], [], [];
    ghost var kept: seq<PathfindingTask> := [];
    while i < bound && i < |cur|
      invariant 0 <= i <= bound
      invariant Bookkept(tasks, i, cur, finished, kept, advanced, outcomes)
      invariant AllProcessed(nav, tasks, deltaTime, timeout, dist, advanced, outcomes)
      invariant AllActive(cur)
      decreases bound - i
    {
      cur, finished, kept, advanced, outcomes :=
        VisitTask(nav, tasks, deltaTime, timeout, dist, i, cur, finished, kept, advanced, outcomes);
      i := i + 1;
    }
    remaining, processed := cur, i;
  }

  /** The worker thread's tick period in seconds, also passed as the tick's `deltaTime`. */
  const WorkerTickTime: real := 0.03

  /** One iteration of the worker loop: rebuild the listeners' cells, then advance the
      queries with the volume's own budget and time limit. The sleep is not modelled. */
  method WorkerIteration(nav: Navmesh, tasks: seq<PathfindingTask>, physics: Physics, dist: Distance)
    returns (nav': Navmesh, remaining: seq<PathfindingTask>, finished: seq<PathfindingTask>)
    requires nav.octantSize != 0.0 && 0 <= nav.maxSubdivisionLevel
    requires AllActive(tasks)
    ensures nav' == TickDynamicCollisionUpdates(nav, physics)
    ensures |remaining| + |finished| == |tasks|
    ensures AllActive(remaining)
    ensures forall t :: t in finished ==> t.status in {TimedOut, Failed, Successful}
  {
    nav' := TickDynamicCollisionUpdates(nav, physics);
    var processed, advanced, outcomes;
    remaining, finished, processed, advanced, outcomes :=
      TickPathfindingUpdates(nav', tasks, WorkerTickTime, nav'.maxPathfindingTasksPerTick, nav'.queryTimeOutLimit, dist);
    forall t | t in finished
      ensures t.status in {TimedOut, Failed, Successful}
    {
      var j :| 0 <= j < |advanced| && advanced[j] == t && outcomes[j] == Completed;
      AllProcessedAt(nav', tasks, WorkerTickTime, nav'.queryTimeOutLimit, dist, advanced, outcomes, j);
      CompletedHasFinalStatus(nav', tasks[j], WorkerTickTime, nav'.queryTimeOutLimit, dist, advanced[j], outcomes[j]);
    }
  }

  /** A successful task's path runs from the origin cell's center to the center of the
      destination cell's predecessor, and is empty exactly when the origin cell is the
      destination cell. */
  lemma SuccessfulPath(nav: Navmesh, t: PathfindingTask, deltaTime: real, timeout: real,
                       dist: Distance, r: PathfindingTask, outcome: Outcome)
    requires nav.octantSize != 0.0
    requires Active(t) && Processed(nav, t, deltaTime, timeout, dist, r, outcome)
    requires r.status == Successful
    ensures outcome == Completed
    ensures r.path == [] <==> r.destinationOctant == r.originOctant
    ensures r.path != [] ==> r.destinationOctant in r.closed && r.path[0] == r.originOctant.center
                             && r.path[|r.path| - 1] == r.closed[r.destinationOctant].center
  {
    if t.timeTaken <= timeout {
      var c := CalculatePath(nav, t, dist);
      SettledStatus(c, deltaTime, r, outcome);
      ReadBackPath(c, r);
    }
  }

  /** The path read back for a task whose path was still empty. */
  lemma ReadBackPath(c: PathfindingTask, r: PathfindingTask)
    requires ReadBack(c, r) && c.path == []
    ensures r == c.(path := r.path)
    ensures r.path == [] <==> c.destinationOctant == c.originOctant
    ensures r.path != [] ==> c.destinationOctant in c.closed && r.path[0] == c.originOctant.center
                             && r.path[|r.path| - 1] == c.closed[c.destinationOctant].center
  {
    var chain: seq<Octant>, centers: seq<Vec3> :|
      && IsChain(c.closed, chain, c.destinationOctant, c.originOctant)
      && |centers| == |chain| - 1
      && (forall i :: 0 <= i < |centers| ==> centers[i] == chain[i + 1].center)
      && r == c.(path := Reverse(c.path + centers));
    PathShape(c.closed, chain, centers, c.destinationOctant, c.originOctant);
    assert c.path + centers == centers;
  }

  /** A completed task has a final status and a continued one keeps its status. */
  lemma CompletedHasFinalStatus(nav: Navmesh, t: PathfindingTask, deltaTime: real, timeout: real,
                                dist: Distance, r: PathfindingTask, outcome: Outcome)
    requires nav.octantSize != 0.0
    requires Active(t) && Processed(nav, t, deltaTime, timeout, dist, r, outcome)
    ensures outcome == Completed <==> r.status in {TimedOut, Failed, Successful}
    ensures outcome == Continued ==> r.status == t.status
  {
    if t.timeTaken <= timeout {
      var c := CalculatePath(nav, t, dist);
      assert c.status == t.status || c.status in {Failed, Successful};
      SettledStatus(c, deltaTime, r, outcome);
    }
  }

  /** Settling keeps the search step's status; it completes exactly the failed and the
      successful tasks. */
  lemma SettledStatus(c: PathfindingTask, deltaTime: real, r: PathfindingTask, outcome: Outcome)
    requires Settled(c, deltaTime, r, outcome)
    ensures r.status == c.status
    ensures outcome == Completed <==> c.status in {Failed, Successful}
  {
    if c.status == Successful {
      var chain: seq<Octant>, centers: seq<Vec3> :|
        && IsChain(c.closed, chain, c.destinationOctant, c.originOctant)
        && |centers| == |chain| - 1
        && (forall i :: 0 <= i < |centers| ==> centers[i] == chain[i + 1].center)
        && r == c.(path := Reverse(c.path + centers));
    }
  }
}

=== FILE: subdivision.dfy ===
/**
 * `SubdivideOctree`: split a partly occupied cell into eight octants, recursively, until the
 * cell is clear, counts as filled, or sits at `maxSubdivisionLevel`.
 */
module Subdivision {
  import opened Geometry
  import opened Octree
  import opened Collision

  /** The fields subdivision never touches. */
  predicate SameCell(a: Octant, b: Octant)
  {
    && a.id == b.id && a.center == b.center && a.extent == b.extent
    && a.xIndex == b.xIndex && a.yIndex == b.yIndex && a.zIndex == b.zIndex
    && a.level == b.level && a.index == b.index && a.cost == b.cost
  }

  /** Every child sits exactly one level below its parent. */
  predicate LevelsByDepth(o: Octant)
    decreases o
  {
    forall i :: 0 <= i < |o.children| ==>
      o.children[i].level == o.level + 1 && LevelsByDepth(o.children[i])
  }

  /** `SubdivideOctree`. The occupancy check runs first; a cell stays a leaf when it is at the
      maximum level, is still navigable after the check, or counts as filled. Otherwise it
      becomes `HasChildren` and eight subdivided children are appended to its child array.
      The source recurses without end when `level > maxLevel`, hence the precondition. */
  function Subdivide(o: Octant, maxLevel: int, physics: Physics, countUntilEarlyExit: int): (r: Octant)
    requires o.level <= maxLevel
    decreases maxLevel - o.level
    ensures SameCell(o, r)
    ensures o.status != HasChildren && o.children == [] ==> Shape(r)
    ensures o.children == [] ==> LevelsAtMost(r, maxLevel) && LevelsByDepth(r)
  {
    var result := physics(o.center, o.extent);
    var filled := Filled(o, result, countUntilEarlyExit);
    var checked := o.(status := StatusAfterCheck(o, result));
    if o.level == maxLevel || checked.status == Navigable || filled then
      checked
    else
      checked.(
        status := HasChildren,
        children := o.children + seq(8, i requires 0 <= i < 8 =>
          Subdivide(MakeChild(checked, i), maxLevel, physics, countUntilEarlyExit)))
  }

  /** How a fresh cell ends up: clear cells stay navigable leaves, overlapped cells at the
      maximum level or counting as filled become blocked leaves, and every other overlapped
      cell is split. */
  lemma SubdivideOutcome(o: Octant, maxLevel: int, physics: Physics, countUntilEarlyExit: int)
    requires o.level <= maxLevel && o.status == Navigable
    ensures var res := physics(o.center, o.extent);
      var r := Subdivide(o, maxLevel, physics, countUntilEarlyExit);
      && (r.status == Navigable <==> !res.overlapped)
      && (r.status == NonNavigable <==>
            res.overlapped && (o.level == maxLevel || Filled(o, res, countUntilEarlyExit)))
      && (r.status == HasChildren <==>
            res.overlapped && o.level < maxLevel && !Filled(o, res, countUntilEarlyExit))
      && (r.status != HasChildren ==> r.children == o.children)
  {
  }

  /** The children of a split fresh cell: eight of them, child `i` offset by half the parent's
      extent along each axis its bits select, with half the extent, one level deeper, child
      index `i`, the parent's grid indices, and the default cost. */
  lemma SubdivideChildren(o: Octant, maxLevel: int, physics: Physics, countUntilEarlyExit: int, i: int)
    requires o.level <= maxLevel && o.children == [] && o.status != HasChildren && 0 <= i < 8
    requires Subdivide(o, maxLevel, physics, countUntilEarlyExit).status == HasChildren
    ensures var r := Subdivide(o, maxLevel, physics, countUntilEarlyExit);
      && |r.children| == 8
      && r.children[i].center == ChildCenter(o, i)
      && r.children[i].extent == Scale(o.extent, 0.5)
      && r.children[i].level == o.level + 1
      && r.children[i].index == i
      && r.children[i].xIndex == o.xIndex && r.children[i].yIndex == o.yIndex
      && r.children[i].zIndex == o.zIndex
      && r.children[i].cost == 1.0
  {
    var res := physics(o.center, o.extent);
    var checked := o.(status := StatusAfterCheck(o, res));
    assert o.level < maxLevel;
    var kids := seq(8, k requires 0 <= k < 8 =>
      Subdivide(MakeChild(checked, k), maxLevel, physics, countUntilEarlyExit));
    assert Subdivide(o, maxLevel, physics, countUntilEarlyExit).children == [] + kids;
  }

  /** Subdividing an existing leaf at the maximum level changes at most its status. */
  lemma SubdivideAtMaxLevel(o: Octant, maxLevel: int, physics: Physics, countUntilEarlyExit: int)
    requires o.level == maxLevel
    ensures Subdivide(o, maxLevel, physics, countUntilEarlyExit)
         == o.(status := StatusAfterCheck(o, physics(o.center, o.extent)))
  {
  }
}

=== FILE: voxelgrid.dfy ===
/**
 * The root grid of the navmesh volume (`GenerateVoxelGrid`) and the localized rebuild of
 * cells around moving obstacles (`TickDynamicCollisionUpdates`).
 */
module VoxelGrid {
  import opened Wrappers
  import opened Geometry
  import opened Octree
  import opened Collision
  import opened Subdivision

  /** `octants[x][y][z]`: the root cells, indexed by their grid coordinates. */
  type Grid = seq<seq<seq<Octant>>>

  /** A cell of the grid, named by its root's grid coordinates and the child indices that lead
      from the root down to it (the stand-in for an `FOctant*` into the grid). */
  datatype CellPath = CellPath(x: int, y: int, z: int, route: seq<int>)

  /** The volume actor's navigation state and its editable settings. */
  datatype Navmesh = Navmesh(
    location: Vec3,
    octantSize: real,
    maxSubdivisionLevel: int,
    percentUntilConsideredFull: real,
    maxPathfindingTasksPerTick: int,
    queryTimeOutLimit: real,
    octants: Grid,
    dynamicCollisionListeners: seq<CellPath>)

  /** The settings' defaults, before any grid is generated. */
  function DefaultNavmesh(location: Vec3): (n: Navmesh)
    ensures n.octantSize == 500.0 && n.maxSubdivisionLevel == 5
    ensures n.percentUntilConsideredFull == 80.0 && n.maxPathfindingTasksPerTick == 200
    ensures n.queryTimeOutLimit == 5.0
    ensures n.octants == [] && n.dynamicCollisionListeners == []
  {
    Navmesh(location, 500.0, 5, 80.0, 200, 5.0, [], [])
  }

  /** The early-exit count the navmesh's fill percentage gives. */
  function CountUntilEarlyExit(nav: Navmesh): int
  {
    EarlyExitCount(nav.percentUntilConsideredFull)
  }

  predicate ValidIndex(grid: Grid, i: int, j: int, k: int)
  {
    0 <= i < |grid| && 0 <= j < |grid[i]| && 0 <= k < |grid[i][j]|
  }

  /** The grid is a box of `xN * yN * zN` roots. */
  ghost predicate Dims(grid: Grid, xN: int, yN: int, zN: int)
  {
    && |grid| == xN
    && (forall i :: 0 <= i < |grid| ==> |grid[i]| == yN)
    && (forall i, j :: 0 <= i < |grid| && 0 <= j < |grid[i]| ==> |grid[i][j]| == zN)
  }

  /** Two grids have the same rows, planes and row lengths. */
  ghost predicate SameDims(a: Grid, b: Grid)
  {
    && |a| == |b|
    && (forall i :: 0 <= i < |a| ==> |a[i]| == |b[i]|)
    && (forall i, j :: 0 <= i < |a| && 0 <= j < |a[i]| ==> |a[i][j]| == |b[i][j]|)
  }

  /** A loop bound as the source's `for (i = 0; i < n; ++i)` sees it. */
  function Count(n: int): nat
  {
    if n < 0 then 0 else n
  }

  /** Root ids run consecutively from 0, X-major, then Y, then Z. */
  function RootId(i: int, j: int, k: int, yN: int, zN: int): int
  {
    (i * yN + j) * zN + k
  }

  /** The center of root (i, j, k): its minimum corner `pos + octantSize * (i, j, k)` plus
      half a cell. */
  function RootCenter(pos: Vec3, octantSize: real, i: int, j: int, k: int): Vec3
  {
    Vec3(octantSize * i as real + pos.x + octantSize / 2.0,
         octantSize * j as real + pos.y + octantSize / 2.0,
         octantSize * k as real + pos.z + octantSize / 2.0)
  }

  function RootExtent(octantSize: real): Vec3
  {
    Scale(Vec3(octantSize, octantSize, octantSize), 0.5)
  }

  /** Root (i, j, k) before it is subdivided. */
  function RootCell(pos: Vec3, octantSize: real, i: int, j: int, k: int, id: int): Octant
  {
    Octant(id, [], RootCenter(pos, octantSize, i, j, k), RootExtent(octantSize),
           i, j, k, 0, 0, 1.0, Navigable)
  }

  /** The geometry and bookkeeping root (i, j, k) keeps for as long as it exists. */
  predicate RootGeometry(c: Octant, pos: Vec3, octantSize: real, i: int, j: int, k: int)
  {
    && c.center == RootCenter(pos, octantSize, i, j, k)
    && c.extent == RootExtent(octantSize)
    && c.xIndex == i && c.yIndex == j && c.zIndex == k
  }

  ghost predicate RootLayout(grid: Grid, pos: Vec3, octantSize: real)
  {
    forall i, j, k :: ValidIndex(grid, i, j, k) ==> RootGeometry(grid[i][j][k], pos, octantSize, i, j, k)
  }

  ghost predicate GridShape(grid: Grid)
  {
    forall i, j, k :: ValidIndex(grid, i, j, k) ==> Shape(grid[i][j][k])
  }

  ghost predicate GridLevels(grid: Grid, maxLevel: int)
  {
    forall i, j, k :: ValidIndex(grid, i, j, k) ==> LevelsAtMost(grid[i][j][k], maxLevel)
  }

  /** What the build leaves at (i, j, k). */
  function BuiltRoot(pos: Vec3, octantSize: real, yN: int, zN: int, maxLevel: int,
                     physics: Physics, countUntilEarlyExit: int, i: int, j: int, k: int): Octant
    requires 0 <= maxLevel
  {
    Subdivide(RootCell(pos, octantSize, i, j, k, RootId(i, j, k, yN, zN)),
              maxLevel, physics, countUntilEarlyExit)
  }

  lemma RootIdStep(i: int, j: int, yN: int, zN: int)
    ensures RootId(i, j, zN, yN, zN) == RootId(i, j + 1, 0, yN, zN)
    ensures RootId(i, yN, 0, yN, zN) == RootId(i + 1, 0, 0, yN, zN)
  {
    assert (i * yN + j + 1) * zN == (i * yN + j) * zN + zN;
    assert ((i + 1) * yN) * zN == (i * yN + yN) * zN;
  }

  /** The innermost loop of `GenerateVoxelGrid`: the row of roots (i, j, 0..zSize). */
  method GenerateRow(pos: Vec3, octantSize: real, yN: int, zSize: int, maxLevel: int,
                     physics: Physics, countUntilEarlyExit: int, i: int, j: int, id0: int)
    returns (row: seq<Octant>, id: int)
    requires 0 <= maxLevel
    requires id0 == RootId(i, j, 0, yN, Count(zSize))
    ensures |row| == Count(zSize)
    ensures forall k :: 0 <= k < |row| ==>
      row[k] == BuiltRoot(pos, octantSize, yN, Count(zSize), maxLevel, physics, countUntilEarlyExit, i, j, k)
    ensures id == RootId(i, j + 1, 0, yN, Count(zSize))
  {
    var zN := Count(zSize);
    row := [];
    id := id0;
    var k := 0;
    while k < zSize
      invariant 0 <= k <= zN
      invariant |row| == k
      invariant id == RootId(i, j, k, yN, zN)
      invariant forall c :: 0 <= c < k ==>
        row[c] == BuiltRoot(pos, octantSize, yN, zN, maxLevel, physics, countUntilEarlyExit, i, j, c)
    {
      var octant := RootCell(pos, octantSize, i, j, k, id);
      id := id + 1;
      octant := Subdivide(octant, maxLevel, physics, countUntilEarlyExit);
      row := row + [octant];
      k := k + 1;
    }
    RootIdStep(i, j, yN, zN);
  }

  /** The middle loop of `GenerateVoxelGrid`: the plane of roots (i, 0..ySize, 0..zSize). */
  method GeneratePlane(pos: Vec3, octantSize: real, ySize: int, zSize: int, maxLevel: int,
                       physics: Physics, countUntilEarlyExit: int, i: int, id0: int)
    returns (plane: seq<seq<Octant>>, id: int)
    requires 0 <= maxLevel
    requires id0 == RootId(i, 0, 0, Count(ySize), Count(zSize))
    ensures |plane| == Count(ySize)
    ensures forall j :: 0 <= j < |plane| ==> |plane[j]| == Count(zSize)
    ensures forall j, k :: 0 <= j < |plane| && 0 <= k < |plane[j]| ==>
      plane[j][k] == BuiltRoot(pos, octantSize, Count(ySize), Count(zSize), maxLevel, physics, countUntilEarlyExit, i, j, k)
    ensures id == RootId(i + 1, 0, 0, Count(ySize), Count(zSize))
  {
    var yN, zN := Count(ySize), Count(zSize);
    plane := [];
    id := id0;
    var j := 0;
    while j < ySize
      invariant 0 <= j <= yN
      invariant |plane| == j
      invariant id == RootId(i, j, 0, yN, zN)
      invariant forall b :: 0 <= b < j ==> |plane[b]| == zN
      invariant forall b, c :: 0 <= b < j && 0 <= c < |plane[b]| ==>
        plane[b][c] == BuiltRoot(pos, octantSize, yN, zN, maxLevel, physics, countUntilEarlyExit, i, b, c)
    {
      var row;
      row, id := GenerateRow(pos, octantSize, yN, zSize, maxLevel, physics, countUntilEarlyExit, i, j, id);
      plane := plane + [row];
      j := j + 1;
    }
    RootIdStep(i, yN, yN, zN);
  }

  /** `GenerateVoxelGrid`. The grid size along each axis is an input (the source derives it
      with `CeilToInt` from the volume's box); every root is built and subdivided in turn, its
      id taken from a counter that starts at 0. */
  method GenerateVoxelGrid(pos: Vec3, octantSize: real, xSize: int, ySize: int, zSize: int,
                           maxLevel: int, physics: Physics, countUntilEarlyExit: int)
    returns (grid: Grid)
    requires 0 <= maxLevel
    ensures Dims(grid, Count(xSize), Count(ySize), Count(zSize))
    ensures forall i, j, k :: ValidIndex(grid, i, j, k) ==>
      grid[i][j][k] == BuiltRoot(pos, octantSize, Count(ySize), Count(zSize), maxLevel, physics, countUntilEarlyExit, i, j, k)
    ensures forall i, j, k :: ValidIndex(grid, i, j, k) ==>
      && grid[i][j][k].id == RootId(i, j, k, Count(ySize), Count(zSize))
      && grid[i][j][k].level == 0 && grid[i][j][k].index == 0 && grid[i][j][k].cost == 1.0
    ensures RootLayout(grid, pos, octantSize)
    ensures GridShape(grid) && GridLevels(grid, maxLevel)
  {
    var yN, zN := Count(ySize), Count(zSize);
    grid := [];
    var id := 0;
    var i := 0;
    while i < xSize
      invariant 0 <= i <= Count(xSize)
      invariant |grid| == i
      invariant id == RootId(i, 0, 0, yN, zN)
      invariant forall a :: 0 <= a < i ==> |grid[a]| == yN
      invariant forall a, b :: 0 <= a < i && 0 <= b < |grid[a]| ==> |grid[a][b]| == zN
      invariant forall a, b, c :: ValidIndex(grid, a, b, c) ==>
        grid[a][b][c] == BuiltRoot(pos, octantSize, yN, zN, maxLevel, physics, countUntilEarlyExit, a, b, c)
    {
      var plane;
      plane, id := GeneratePlane(pos, octantSize, ySize, zSize, maxLevel, physics, countUntilEarlyExit, i, id);
      grid := grid + [plane];
      i := i + 1;
    }
  }

  // ----- Cells addressed by path, and the dynamic rebuild -----

  function SubtreeAt(o: Octant, route: seq<int>): Option<Octant>
    decreases |route|
  {
    if route == [] then Some(o)
    else if 0 <= route[0] < |o.children| then SubtreeAt(o.children[route[0]], route[1..])
    else None
  }

  /** The cell a path names, if it exists. */
  function CellAt(grid: Grid, p: CellPath): Option<Octant>
  {
    if ValidIndex(grid, p.x, p.y, p.z) then SubtreeAt(grid[p.x][p.y][p.z], p.route) else None
  }

  function ReplaceSubtree(o: Octant, route: seq<int>, c: Octant): (r: Octant)
    requires SubtreeAt(o, route).Some?
    ensures SubtreeAt(r, route) == Some(c)
    decreases |route|
  {
    if route == [] then c
    else
      var k := route[0];
      o.(children := o.children[k := ReplaceSubtree(o.children[k], route[1..], c)])
  }

  /** Neither route is a prefix of the other: the cells they name lie in disjoint subtrees. */
  predicate Unrelated(q: seq<int>, route: seq<int>)
  {
    !(q <= route) && !(route <= q)
  }

  /** `q` names a proper ancestor of the cell `route` names. */
  predicate AncestorRoute(q: seq<int>, route: seq<int>)
  {
    q <= route && |q| < |route|
  }

  /** A write through a cell pointer leaves every cell outside the written subtree and off
      the path to it as it was. */
  lemma {:induction false} ReplaceSubtreeFrame(o: Octant, route: seq<int>, c: Octant, q: seq<int>)
    requires SubtreeAt(o, route).Some? && Unrelated(q, route)
    ensures SubtreeAt(ReplaceSubtree(o, route, c), q) == SubtreeAt(o, q)
    decreases |route|
  {
    if route != [] && q != [] && q[0] == route[0] {
      ReplaceSubtreeFrame(o.children[route[0]], route[1..], c, q[1..]);
    }
  }

  /** The cells on the path to the written cell keep every field but their children. */
  lemma {:induction false} ReplaceSubtreeAncestors(o: Octant, route: seq<int>, c: Octant, q: seq<int>)
    requires SubtreeAt(o, route).Some? && AncestorRoute(q, route)
    ensures var a := SubtreeAt(ReplaceSubtree(o, route, c), q);
      a.Some? && SubtreeAt(o, q).Some? && a.value == SubtreeAt(o, q).value.(children := a.value.children)
    decreases |route|
  {
    if q != [] {
      ReplaceSubtreeAncestors(o.children[route[0]], route[1..], c, q[1..]);
    }
  }

  /** The frame of `ReplaceSubtree` over all routes at once. */
  lemma ReplaceSubtreeFrameAll(o: Octant, route: seq<int>, c: Octant)
    requires SubtreeAt(o, route).Some?
    ensures forall q :: Unrelated(q, route) ==> SubtreeAt(ReplaceSubtree(o, route, c), q) == SubtreeAt(o, q)
    ensures forall q :: AncestorRoute(q, route) ==>
      var a := SubtreeAt(ReplaceSubtree(o, route, c), q);
      a.Some? && SubtreeAt(o, q).Some? && a.value == SubtreeAt(o, q).value.(children := a.value.children)
  {
    forall q | Unrelated(q, route)
      ensures SubtreeAt(ReplaceSubtree(o, route, c), q) == SubtreeAt(o, q)
    {
      ReplaceSubtreeFrame(o, route, c, q);
    }
    forall q | AncestorRoute(q, route)
      ensures var a := SubtreeAt(ReplaceSubtree(o, route, c), q);
        a.Some? && SubtreeAt(o, q).Some? && a.value == SubtreeAt(o, q).value.(children := a.value.children)
    {
      ReplaceSubtreeAncestors(o, route, c, q);
    }
  }

  /** Overwrite the cell a path names. Every other root stays as it was; within the written
      root, cells in other subtrees stay as they were, and the cells on the path keep every
      field but their children. */
  function ReplaceAt(grid: Grid, p: CellPath, c: Octant): (r: Grid)
    requires CellAt(grid, p).Some?
    ensures CellAt(r, p) == Some(c)
    ensures SameDims(grid, r)
    ensures forall i, j, k :: ValidIndex(grid, i, j, k) && (i, j, k) != (p.x, p.y, p.z) ==>
      r[i][j][k] == grid[i][j][k]
    ensures forall q :: Unrelated(q, p.route) ==>
      SubtreeAt(r[p.x][p.y][p.z], q) == SubtreeAt(grid[p.x][p.y][p.z], q)
    ensures forall q :: AncestorRoute(q, p.route) ==>
      var a := SubtreeAt(r[p.x][p.y][p.z], q);
      a.Some? && SubtreeAt(grid[p.x][p.y][p.z], q).Some?
      && a.value == SubtreeAt(grid[p.x][p.y][p.z], q).value.(children := a.value.children)
  {
    var root := ReplaceSubtree(grid[p.x][p.y][p.z], p.route, c);
    ReplaceSubtreeFrameAll(grid[p.x][p.y][p.z], p.route, c);
    grid[p.x := grid[p.x][p.y := grid[p.x][p.y][p.z := root]]]
  }

  /** Two cells occupy the same place in a tree. */
  predicate SamePlace(a: Octant, b: Octant)
  {
    && a.center == b.center && a.extent == b.extent && a.index == b.index
    && a.xIndex == b.xIndex && a.yIndex == b.yIndex && a.zIndex == b.zIndex
  }

  lemma {:induction false} ReplaceSubtreeKeepsShape(o: Octant, route: seq<int>, c: Octant)
    requires Shape(o) && Shape(c)
    requires SubtreeAt(o, route).Some? && SamePlace(SubtreeAt(o, route).value, c)
    ensures Shape(ReplaceSubtree(o, route, c)) && SamePlace(ReplaceSubtree(o, route, c), o)
    decreases |route|
  {
    if route != [] {
      var k := route[0];
      ReplaceSubtreeKeepsShape(o.children[k], route[1..], c);
      var r := ReplaceSubtree(o, route, c);
      forall i | 0 <= i < |r.children|
        ensures IsChildOf(r.children[i], r, i) && Shape(r.children[i])
      {
        if i != k {
          assert r.children[i] == o.children[i];
        }
      }
    }
  }

  lemma {:induction false} ReplaceSubtreeKeepsLevels(o: Octant, route: seq<int>, c: Octant, maxLevel: int)
    requires LevelsAtMost(o, maxLevel) && LevelsAtMost(c, maxLevel)
    requires SubtreeAt(o, route).Some?
    ensures LevelsAtMost(ReplaceSubtree(o, route, c), maxLevel)
    decreases |route|
  {
    if route != [] {
      ReplaceSubtreeKeepsLevels(o.children[route[0]], route[1..], c, maxLevel);
    }
  }

  /** One listener's rebuild: the cell is reset to a level-0 navigable leaf and subdivided
      again. */
  function Rebuild(c: Octant, maxLevel: int, physics: Physics, countUntilEarlyExit: int): (r: Octant)
    requires 0 <= maxLevel
    ensures SamePlace(r, c) && r.level == 0 && r.cost == 1.0 && r.id == c.id
    ensures Shape(r) && LevelsAtMost(r, maxLevel)
  {
    Subdivide(Reset(c), maxLevel, physics, countUntilEarlyExit)
  }

  /** One listener: rebuild its cell if it still exists. Only that listener's root changes. */
  function RebuildListener(grid: Grid, p: CellPath, maxLevel: int,
                           physics: Physics, countUntilEarlyExit: int): (r: Grid)
    requires 0 <= maxLevel
    ensures SameDims(grid, r)
    ensures forall pos, size :: RootLayout(grid, pos, size) ==> RootLayout(r, pos, size)
    ensures GridShape(grid) ==> GridShape(r)
    ensures GridLevels(grid, maxLevel) ==> GridLevels(r, maxLevel)
    ensures forall i, j, k :: ValidIndex(grid, i, j, k) && (i, j, k) != (p.x, p.y, p.z) ==>
      r[i][j][k] == grid[i][j][k]
    ensures CellAt(grid, p).Some? ==>
      CellAt(r, p) == Some(Rebuild(CellAt(grid, p).value, maxLevel, physics, countUntilEarlyExit))
    ensures ValidIndex(grid, p.x, p.y, p.z) ==> forall q :: Unrelated(q, p.route) ==>
      SubtreeAt(r[p.x][p.y][p.z], q) == SubtreeAt(grid[p.x][p.y][p.z], q)
    ensures CellAt(grid, p).Some? ==> forall q :: AncestorRoute(q, p.route) ==>
      var a := SubtreeAt(r[p.x][p.y][p.z], q);
      a.Some? && SubtreeAt(grid[p.x][p.y][p.z], q).Some?
      && a.value == SubtreeAt(grid[p.x][p.y][p.z], q).value.(children := a.value.children)
  {
    match CellAt(grid, p)
    case Some(c) =>
      RebuildStepKeepsGrid(grid, p, maxLevel, physics, countUntilEarlyExit);
      ReplaceAt(grid, p, Rebuild(c, maxLevel, physics, countUntilEarlyExit))
    case None => grid
  }

  /** No listener in root (i, j, k) names a cell on the path `q` or below it, nor one of
      the cells above it. */
  predicate Untouched(listeners: seq<CellPath>, i: int, j: int, k: int, q: seq<int>)
  {
    forall l :: 0 <= l < |listeners| && (listeners[l].x, listeners[l].y, listeners[l].z) == (i, j, k) ==>
      Unrelated(q, listeners[l].route)
  }

  /** `TickDynamicCollisionUpdates` over a list of listeners, in order. A listener whose cell
      no longer exists (an earlier listener's rebuild removed it) is skipped. Roots no
      listener names are left untouched. */
  function RebuildListeners(grid: Grid, listeners: seq<CellPath>, maxLevel: int,
                            physics: Physics, countUntilEarlyExit: int): (r: Grid)
    requires 0 <= maxLevel
    ensures SameDims(grid, r)
    ensures forall pos, size :: RootLayout(grid, pos, size) ==> RootLayout(r, pos, size)
    ensures GridShape(grid) ==> GridShape(r)
    ensures GridLevels(grid, maxLevel) ==> GridLevels(r, maxLevel)
    ensures forall i, j, k ::
      (ValidIndex(grid, i, j, k) &&
       forall l :: 0 <= l < |listeners| ==> (listeners[l].x, listeners[l].y, listeners[l].z) != (i, j, k))
      ==> r[i][j][k] == grid[i][j][k]
    ensures forall i, j, k, q :: ValidIndex(grid, i, j, k) && Untouched(listeners, i, j, k, q) ==>
      SubtreeAt(r[i][j][k], q) == SubtreeAt(grid[i][j][k], q)
    decreases |listeners|
  {
    if listeners == [] then grid
    else
      var next := RebuildListener(grid, listeners[0], maxLevel, physics, countUntilEarlyExit);
      UntouchedSplit(listeners);
      RebuildListeners(next, listeners[1..], maxLevel, physics, countUntilEarlyExit)
  }

  /** A cell untouched by a list of listeners is untouched by the first and by the rest. */
  lemma UntouchedSplit(listeners: seq<CellPath>)
    requires |listeners| > 0
    ensures forall i, j, k, q :: Untouched(listeners, i, j, k, q) ==>
      && Untouched(listeners[1..], i, j, k, q)
      && ((listeners[0].x, listeners[0].y, listeners[0].z) == (i, j, k) ==> Unrelated(q, listeners[0].route))
  {
    forall i, j, k, q | Untouched(listeners, i, j, k, q)
      ensures Untouched(listeners[1..], i, j, k, q)
    {
      forall l | 0 <= l < |listeners| - 1 && (listeners[l + 1].x, listeners[l + 1].y, listeners[l + 1].z) == (i, j, k)
        ensures Unrelated(q, listeners[1..][l].route)
      {
        assert listeners[1..][l] == listeners[l + 1];
      }
    }
  }

  lemma RebuildStepKeepsGrid(grid: Grid, p: CellPath, maxLevel: int, physics: Physics, countUntilEarlyExit: int)
    requires 0 <= maxLevel && CellAt(grid, p).Some?
    ensures var r := ReplaceAt(grid, p, Rebuild(CellAt(grid, p).value, maxLevel, physics, countUntilEarlyExit));
      && (forall pos, size :: RootLayout(grid, pos, size) ==> RootLayout(r, pos, size))
      && (GridShape(grid) ==> GridShape(r))
      && (GridLevels(grid, maxLevel) ==> GridLevels(r, maxLevel))
  {
    var c := CellAt(grid, p).value;
    var n := Rebuild(c, maxLevel, physics, countUntilEarlyExit);
    var r := ReplaceAt(grid, p, n);
    var root := grid[p.x][p.y][p.z];
    assert r[p.x][p.y][p.z] == ReplaceSubtree(root, p.route, n);
    ReplaceSubtreeSamePlace(root, p.route, n);
    if GridShape(grid) {
      ReplaceSubtreeKeepsShape(root, p.route, n);
    }
    if GridLevels(grid, maxLevel) {
      ReplaceSubtreeKeepsLevels(root, p.route, n, maxLevel);
    }
  }

  /** Replacing a proper descendant leaves the root's own place alone; replacing the root
      itself needs a cell at the same place. */
  lemma ReplaceSubtreeSamePlace(o: Octant, route: seq<int>, c: Octant)
    requires SubtreeAt(o, route).Some? && SamePlace(SubtreeAt(o, route).value, c)
    ensures SamePlace(ReplaceSubtree(o, route, c), o)
  {
  }

  /** `TickDynamicCollisionUpdates`: rebuild every listener's cell. */
  function TickDynamicCollisionUpdates(nav: Navmesh, physics: Physics): (r: Navmesh)
    requires 0 <= nav.maxSubdivisionLevel
    ensures r == nav.(octants := r.octants)
    ensures GridShape(nav.octants) ==> GridShape(r.octants)
    ensures GridLevels(nav.octants, nav.maxSubdivisionLevel) ==> GridLevels(r.octants, nav.maxSubdivisionLevel)
    ensures RootLayout(nav.octants, nav.location, nav.octantSize) ==> RootLayout(r.octants, nav.location, nav.octantSize)
    ensures nav.dynamicCollisionListeners == [] ==> r == nav
  {
    nav.(octants := RebuildListeners(nav.octants, nav.dynamicCollisionListeners,
                                     nav.maxSubdivisionLevel, physics, CountUntilEarlyExit(nav)))
  }
}

=== FILE: wrappers.dfy ===
/** The null-or-value shape the navmesh uses for pointer results (a cell that may not exist). */
module Wrappers {

  /** `None` stands for the null pointer the navmesh returns, `Some` for a found value. */
  datatype Option<+T> = None | Some(value: T)

  /** The elements of an option as a sequence of length zero or one. */
  function ToSeq<T>(o: Option<T>): (r: seq<T>)
    ensures |r| <= 1
    ensures o.Some? <==> |r| == 1
    ensures o.Some? ==> r[0] == o.value
  {
    match o
    case None => []
    case Some(v) => [v]
  }
}
